=== FILE: README.md ===
# ruinsTorch core in Dafny

A model of the core of ruinsTorch, a small reverse-mode automatic-differentiation library written in Go. The model covers:

- **Tensors** (`tensor.dfy`, module `Tensors`): the `CPUTensor` record and the `Function` record a differentiable operation attaches to its output. The constructors `NewCPUTensorBySlice`, `NewOnesCPUTensor` and `NewZerosCPUTensor`, `computeStride`, `Size` and `ZeroGrad`.
- **Operators** (`autograd.dfy`, module `Autograd`): `Add`, `Sub`, `Mul`, `Div` and `Mean`. This covers their validation order, forward values, `RequiresGrad`/`Creator` wiring and backward closures.
- **ReLU** (`relu.dfy`, module `Relu`) and the two **losses** (`loss.dfy`, module `Loss`): `MSELoss.Forward` and `CrossEntropyLoss.Forward`, each with its fused backward closure.
- **Graph nodes** (`graph.dfy`, module `Graph`): the `Function.Backward` of every node kind behind one dispatcher. It includes the lemma that each node a forward operator attaches accepts an upstream gradient of its output's size.
- **Training glue**:
  - `BaseModule` (`module.dfy`, module `Modules`);
  - the gradient-descent `Optimizer` (`optimizer.dfy`, module `Optim`);
  - the `CPUTensorDataset` (`dataset.dfy`, module `Datasets`);
  - the `DataLoader` (`dataloader.dfy`, module `Loader`).
- **Shared definitions**: `results.dfy` holds the error kinds and the `Result`/`Option` wrappers; `vectors.dfy` holds sums, one-entry perturbations and the defining equation of one entry of a vector-Jacobian product (`Weighs`).

Modelling decisions:

- **Values and pointers**
  - `float64` is modelled as `real`: arithmetic is exact, and there is no NaN, infinity or rounding.
  - `math.Log` is a function parameter `ln: real -> real`. Go's `int(x)` on a float is truncation toward zero (`Loss.Trunc`).
  - Go `int` is an unbounded integer: no 64-bit wrap-around.
  - Tensors are immutable values. The Go heap of tensor pointers, which `BaseModule` and `Optimizer` share, is a `Store` (a sequence of tensors) addressed by handles. A tensor registered twice is therefore updated twice, as in Go.
- **Closures and their panics**
  - A backward closure becomes a node constructor (`AddNode`, `MulNode`, `MseNode`, ...). The constructor holds the operands the closure reads, as they were at forward time. This equals the Go closure only if nothing mutates those operands between forward and backward.
  - A Go panic (a nil dereference after an ignored constructor error, an out-of-range index) is a precondition on the modelled function. Each such precondition excludes at least the inputs on which the Go code panics. Where it excludes more, the member's line under "Left out" says which inputs and why.
- **Errors and nil results**: the Go `(value, error)` pairs are `Result` values, and nil results that come with a nil error are `Option` values.
- **Randomness**: the random swaps of `rand.Shuffle` in `DataLoader.Reset` are a parameter, the sequence of draws. Any draws in range are allowed.

Behaviour of the code worth noting:

- **Shape check.** The binary operators compare shapes only at the indices of `a.Shape`.
  - An operand `b` of higher rank with an equal prefix passes the check.
  - For one of lower rank, a differing shared dimension still gives the shape error. If all shared dimensions agree, the loop indexes past the end of `b.Shape`, a panic. The model makes that case a precondition (`Autograd.ShapeLoopPanics` inside `Autograd.BinaryDefined`).
- **Gradient buffers.** The constructors never allocate `Grad`: it is empty, not a zero buffer. `ZeroGrad` loops over whatever `Grad` holds, whether or not the tensor requires a gradient.
- **Error kinds.** The cross-entropy loss reports a wrong rank and a batch-size mismatch as two distinct errors (`RankMismatch`, `BatchMismatch`). `Mean` on empty input reports "tensor has no data".
- **MSE forward and node.**
  - The MSE forward value is computed by `Mul` then `Mean`; only the node is fused.
  - The node lists `[predictions, targets]` as inputs but returns a gradient for the predictions only.
  - On empty inputs without a gradient, the loss is nil with a nil error (`Ok(None)`).

## Model

| member | source | states |
|---|---|---|
| Tensors.NewTensorBySlice | core/tensor.go:47-65 | fails iff the data length differs from the product of the shape (so a rank-0 shape takes exactly one value); on success keeps data, shape and flag, has a row-major stride, an empty gradient, no creator, and Size equal to the data length |
| Tensors.ComputeStride | core/tensor.go:68-76 | one stride per dimension, the last is 1, each is the next times the next dimension, so stride[i] is the product of the dimensions after i |
| Tensors.StrideStep | core/tensor.go:71-74 | prepending the product of the later dimensions to the strides of shape[1..] gives the row-major strides of shape |
| Tensors.Size | core/tensor.go:131-137 | the product of the shape equals the number of values of any well-formed tensor |
| Tensors.NewOnes | core/tensor.go:78-96 | never fails; product(shape) values all 1.0, Size equal to the length, given flag, no creator, empty gradient |
| Tensors.NewZeros | core/tensor.go:105-118 | never fails; product(shape) values all 0.0, no gradient required, no creator, empty gradient |
| Tensors.ZeroGrad | core/tensor.go:99-103 | every gradient entry becomes 0, the gradient keeps its length, and every other field is unchanged |
| Tensors.ZeroGradIdempotent | core/tensor.go:99-103 | zeroing the gradient twice is zeroing it once |
| Tensors.ZeroGradOfFreshTensor | core/tensor.go:56-64 | the three constructors leave the gradient empty, so zeroing a fresh tensor changes nothing |
| Autograd.Binary | core/autograd.go:5-148 | Add/Sub/Mul/Div: size error first, then shape error iff a listed dimension differs, then (Div) division-by-zero iff a divisor is 0; otherwise result[i] = a[i] op b[i], a's shape, requiresGrad is the OR of the operands, and a node with inputs [a, b] exactly when it is set |
| Autograd.BinaryBackward | core/autograd.go:22-146 | the backward closures: len(a)+len(b) values, the a-segment then the b-segment, entry i being the partial derivative times g[i] (g, g; g, -g; g*b, g*a; g/b, -g*a/b^2) and 0 past the end of g |
| Autograd.ElementwiseChangeA | core/autograd.go:16-19 | moving a[i] changes only entry i of an elementwise result |
| Autograd.ElementwiseChangeB | core/autograd.go:16-19 | moving b[i] changes only entry i of an elementwise result |
| Autograd.PartialAIsExact | core/autograd.go:97-104 | g times the change of one output entry when a[i] moves by h is h times the a-partial, for all four operators |
| Autograd.PartialBIsExact | core/autograd.go:61-68 | the same for b[i] and the b-partial of Add, Sub and Mul |
| Autograd.BinaryBackwardEntryA | core/autograd.go:97-104 | the a-segment is the exact vector-Jacobian product: moving a[i] by h changes only output i, by an amount that weighted by g[i] is h times gradient entry i |
| Autograd.BinaryBackwardEntryB | core/autograd.go:61-68 | the b-segment of Add, Sub and Mul is the exact vector-Jacobian product in the same sense |
| Autograd.DivPartialBIsFirstOrder | core/autograd.go:141 | Div's b-partial -g*x/y^2 is the first-order coefficient of g times x/y in y: the remainder of the change when y moves by h (y and y + h non-zero) is exactly g*x*h^2 / (y^2 (y + h)) |
| Autograd.DivPartialBIsNotExact | core/autograd.go:141 | that remainder is real: with x = y = h = g = 1 the quotient moves by -1/2 while the b-partial predicts -1 |
| Autograd.BinaryBackwardEntryBDiv | core/autograd.go:135-143 | the b-segment of Div: moving b[i] by h to a non-zero value changes only output i, and gradient entry |a| + i is its first-order coefficient in the sense above |
| Autograd.AddThenSubRoundTrip | core/autograd.go:5-73 | (a + b) - b succeeds and equals a element-wise |
| Autograd.DivThenMulRoundTrip | core/autograd.go:75-148 | (a / b) * b succeeds and equals a when b has no zero |
| Autograd.Mean | core/autograd.go:150-164 | an error iff the input is empty; otherwise a shape-[1] tensor holding sum/n, the input's flag, and a node with input [input] exactly when it is set |
| Autograd.MeanOfConstant | core/autograd.go:156-161 | the mean of a constant vector is that constant |
| Autograd.MeanBackward | core/autograd.go:167-179 | n entries, each g[0]/n |
| Autograd.MeanBackwardSumsToUpstream | core/autograd.go:171-177 | the n shares add up to g[0] |
| Autograd.MeanBackwardIsExact | core/autograd.go:156-177 | moving input[i] by h moves g[0] times the mean by h times entry i of the backward result |
| Relu.Forward | nn/relu.go:13-43 | output i is input i when positive and 0 otherwise (so non-negative, positive exactly where the input is), same shape and length, the input's flag, a node with input [input] exactly when set; nil exactly for a malformed input |
| Relu.ForwardIdempotent | nn/relu.go:15-21 | applying ReLU to its output changes no value |
| Relu.Backward | nn/relu.go:29-39 | len(input) entries: grad[i] where input[i] > 0, else 0 |
| Relu.BackwardIsExact | nn/relu.go:14-39 | away from 0, moving input[i] by h without crossing 0 changes only output i, by an amount that weighted by g[i] is h times gradient entry i |
| Relu.Parameters | nn/relu.go:46-48 | no parameters |
| Relu.ZeroGrad | nn/relu.go:50 | changes nothing, which is zeroing the gradients of its empty parameter list |
| Loss.Diff | nn/loss.go:24-27 | entry i is p[i] - t[i] |
| Loss.SquaredErrors | nn/loss.go:30 | entry i is (p[i] - t[i])^2, never negative |
| Loss.MseForward | nn/loss.go:18-48 | size error iff the lengths differ; nil loss exactly on empty inputs; otherwise a shape-[1] tensor holding the mean of the squared differences, the predictions' flag, and the fused MSE node exactly when predictions require a gradient |
| Loss.MseIsNonNegative | nn/loss.go:24-31 | the MSE loss is never negative |
| Loss.MseBackward | nn/loss.go:38-44 | len(predictions) entries, entry i times n equal to g[0] * 2 * (p[i] - t[i]) |
| Loss.MsePerfectPrediction | nn/loss.go:24-44 | predictions equal to targets give loss 0 and an all-zero gradient |
| Loss.SquaredErrorsAfterBump | nn/loss.go:24-31 | moving p[i] by h moves the sum of squared errors by (d+h)^2 - d^2 with d = p[i] - t[i] |
| Loss.MseAfterBump | nn/loss.go:24-31 | the MSE after moving p[i] by h, as the old sum plus that growth, over n |
| Loss.MeanSquaredErrorFirstOrder | nn/loss.go:24-44 | any partial with partial * n = 2 g0 (p[i] - t[i]) is the first-order coefficient of g0 times the MSE in p[i], with remainder g0 h^2 / n |
| Loss.MseBackwardIsFirstOrder | nn/loss.go:38-44 | the MSE backward rule is the derivative of the forward value: moving p[i] by h changes g[0] times the loss by h times entry i plus g[0] h^2 / n |
| Loss.Trunc | nn/loss.go:73 | truncation toward zero: within 1 of x, on the side of 0 |
| Loss.FlatIndex | nn/loss.go:77 | row-major position i*c+j of a b-by-c matrix lies in [0, b*c) |
| Loss.FlatIndexInverse | nn/loss.go:77 | the row and column are recovered from the flat position by division and remainder |
| Loss.FlatIndexOf | nn/loss.go:97 | every position below b*c is the flat position of its quotient and remainder |
| Loss.Scan | nn/loss.go:71-82 | the row loop: succeeds iff every remaining row has a class in range and a positive probability, and then subtracts every row's log probability; otherwise fails with the error of the first bad row |
| Loss.CrossEntropyForward | nn/loss.go:59-108 | rank error, then batch error, then success iff every row is valid, else the first bad row's error; on success a shape-[1] tensor holding -(sum of ln p[i, c_i]) / batch, the predictions' flag, and the cross-entropy node exactly when predictions require a gradient |
| Loss.CertainPredictionHasZeroLoss | nn/loss.go:71-83 | when every target class is predicted with probability 1, the log likelihood is 0 |
| Loss.TargetGradient | nn/loss.go:97 | the target entry r satisfies r * p * batch = -g[0], and is non-zero iff g[0] is |
| Loss.CeGradientAtFlat | nn/loss.go:93-101 | the entry at row i, column j is the target gradient when j is row i's class and 0 otherwise |
| Loss.CeBackward | nn/loss.go:91-104 | len(predictions) entries: at (i, c_i) the target gradient -g[0]/(p*batch), every other entry of the matrix and every entry past it exactly 0 |
| Loss.CeGradientSupport | nn/loss.go:95-100 | with g[0] non-zero, an entry of the gradient is non-zero exactly at a row's target class |
| Loss.LogLikelihoodIgnoresOffTarget | nn/loss.go:71-81 | moving a prediction that is no row's target entry changes no row's validity and not the sum of log target probabilities |
| Loss.CeBackwardOffTarget | nn/loss.go:93-102 | the backward rule is 0 at every prediction that is no row's target entry, including positions past the b-by-c matrix |
| Loss.CrossEntropyOffTargetIsExact | nn/loss.go:59-104 | moving such a prediction by h leaves a successful loss successful and unchanged, so the backward rule's 0 there is the exact vector-Jacobian entry |
| Loss.CrossEntropySingleRowForward | nn/loss.go:59-84 | one row whose target class 0 is predicted with probability 0.7, among any number of classes (such as [0.7, 0.3]), gives loss -ln 0.7 and the cross-entropy node when required |
| Loss.CrossEntropySingleRowBackward | nn/loss.go:91-104 | the same row with g = [1] gives -1/0.7 at the target and 0 at every other class ([-1/0.7, 0] for two classes) |
| Graph.Backward | core/tensor.go:41-45 | a node's backward result is its inputs' segments laid end to end, with total length the inputs' total size, except for the loss nodes, whose result covers the predictions only |
| Graph.Segment | core/autograd.go:32 | the gradient segment of input k has that input's length |
| Graph.BinaryNodeAcceptsOutputGradient | core/autograd.go:20-35 | the node a binary operator attaches runs on any gradient of its output's size, and its two segments are the a- and b-gradients |
| Graph.MeanNodeAcceptsOutputGradient | core/autograd.go:164-180 | the node Mean attaches runs on any one-value gradient, and its one segment is Mean's backward result |
| Graph.ReluNodeAcceptsOutputGradient | nn/relu.go:22-41 | the node ReLU attaches runs on any gradient of its output's size |
| Graph.MseNodeAcceptsOutputGradient | nn/loss.go:34-45 | the MSE node runs on any one-value gradient and returns len(predictions) entries |
| Graph.CrossEntropyNodeAcceptsOutputGradient | nn/loss.go:87-106 | the cross-entropy node runs on any one-value gradient and returns len(predictions) entries |
| Graph.MulThenMeanExample | core/autograd.go:75-182 | for a = (1,2,3), b = (4,5,6): mean(a*b) = 32/3; seeding its node with 1 gives (1/3,1/3,1/3), and the product's node then gives dA = (4/3,5/3,2), dB = (1/3,2/3,1) |
| Datasets.GetItem | data/dataset.go:37-42 | an error iff the index is outside [0, Len); otherwise the pair at that index |
| Datasets.NewDataset | data/dataset.go:21-29 | with equally long slices, Len is their length and GetItem answers every in-range index with the pair at it |
| Loader.Range | data/dataloader.go:28-31 | the identity order 0, 1, ..., n-1 |
| Loader.RangeCounts | data/dataloader.go:28-31 | each of 0..n-1 occurs in the identity order exactly once and nothing else occurs |
| Loader.NewDataLoader | data/dataloader.go:27-38 | the given dataset, batch size and flag, indices 0..Len-1, cursor 0 |
| Loader.Swap | data/dataloader.go:45-47 | the swap closure exchanges two entries, keeps the rest, and keeps the multiset |
| Loader.FisherYates | data/dataloader.go:45-47 | any sequence of swaps keeps the length and the multiset of indices |
| Loader.Reset | data/dataloader.go:41-49 | the cursor goes to 0, nothing else but the order changes, the order stays a permutation, and without shuffling it is unchanged |
| Loader.Iterate | data/dataloader.go:82-87 | the loader the returned closure works on: cursor 0, the same indices in a possibly new order, nothing else changed; the closure can be called iff the batch size is non-negative or there are no samples (and every input has a target); its first call reports "no more batches" on an empty order and otherwise, with a positive batch size and every index inside the dataset, hands out the first min(BatchSize, n) samples of the new order and moves the cursor past them |
| Loader.PickConcat | data/dataloader.go:67-74 | gathering the items of two index runs in turn is gathering their concatenation |
| Loader.Gather | data/dataloader.go:65-74 | succeeds iff every index is in range, and then holds the inputs and targets at those indices in order; otherwise the index error |
| Loader.NextBatch | data/dataloader.go:52-79 | past the end, "no more batches" with no change; a failing GetItem leaves the loader unchanged; otherwise the items at indices[start : min(start+BatchSize, n)] in order, and the cursor moves to that end |
| Loader.ZeroBatchSizeStalls | data/dataloader.go:58-62 | with batch size 0, NextBatch returns an empty batch and never moves the cursor |
| Loader.EpochStep | data/dataloader.go:52-79 | with samples left, a positive batch size and every index inside the dataset, NextBatch succeeds and moves the cursor forward, and the epoch's items are this batch's, indices[cursor : new cursor], followed by the rest of the epoch's |
| Loader.EpochCoversRemainingIndices | data/dataloader.go:52-79 | with a positive batch size and every index inside the dataset, successive batches hand out the items at indices[cursor..] in order, and then NextBatch reports that there are no more batches |
| Loader.EpochBatchSizes | data/dataloader.go:58-62 | under the same hypotheses, those batches number ceil(n / BatchSize), all but the last holding exactly BatchSize items |
| Loader.IterateVisitsEverySampleOnce | data/dataloader.go:27-87 | with a positive batch size and as many targets as inputs, a fresh loader, after Iterate with any shuffle, hands out every sample of the dataset exactly once over one epoch, then "no more batches" |
| Modules.AddParameter | nn/module.go:16-18 | appends the tensor and keeps the earlier parameters in place |
| Modules.ParametersInRegistrationOrder | nn/module.go:16-23 | the parameters are the registered tensors in registration order, duplicates included |
| Modules.ZeroGradAll | nn/module.go:26-30 | zeroes the gradient of every listed tensor and leaves every other tensor unchanged |
| Modules.ZeroGrad | nn/module.go:26-30 | every parameter's gradient becomes all zeros of the same length, its data is unchanged, and tensors that are not parameters are unchanged |
| Modules.ZeroGradIdempotent | nn/module.go:26-30 | zeroing a module's gradients twice is zeroing them once |
| Optim.NewOptimizer | optim/optimizer.go:10-12 | keeps the parameter list and learning rate as given |
| Optim.DescendIsIdentity | optim/optimizer.go:17 | no update, or rate 0, leaves a tensor unchanged |
| Optim.DescendAtZeroGradient | optim/optimizer.go:17 | with an all-zero gradient, any number of updates leaves a tensor unchanged |
| Optim.DescendOnceMore | optim/optimizer.go:15-19 | one more update after m updates is m + 1 updates |
| Optim.Update | optim/optimizer.go:16-18 | the inner loop sets every data[i] to data[i] - lr * grad[i] |
| Optim.SteppedExtend | optim/optimizer.go:15-19 | one more pass of the outer loop extends the updates by one listed tensor |
| Optim.Step | optim/optimizer.go:14-20 | a tensor listed m times gets m descent updates, each subtracting lr * grad[i] from data[i]; unlisted tensors and all gradients are unchanged |
| Optim.StepModule | optim/optimizer.go:10-20 | an optimizer over a module's parameters moves exactly those tensors |

## Left out

- The backward driver (the graph traversal that accumulates gradients into the leaves). No such function exists in the library's core files. The model gives each node's rule and proves that every attached node accepts a gradient of its output's size. It does not model traversal or fan-out accumulation.
- The program in `examples/` and the `train/` package. The first is a command-line driver that prints; the second is a non-compiling copy of the data loader.
- The `ITensor` methods `Get`, `Set`, `Reshape`, `Transpose` and `Slice`. They are declared but have no implementation.
- `Print`, `Dtype` and `Device`: output and constant strings. The `dtype` and `device` fields are not kept.
- The `Module` interface, which only declares methods.
- IEEE-754 behaviour (rounding, NaN, infinity), because values are reals. A batch of 0 in the cross-entropy loss, where Go divides 0 by 0, is therefore excluded (see `Loss.CrossEntropyForward` below).
- 64-bit integer overflow of shape products and flat indices.
- The clock-based seed and the internals of `rand.Shuffle`. The draws are a parameter, and only the permutation property is proved.
- `Datasets.Len` has no row: it returns the number of inputs and is used in the contracts of `GetItem`, `NewDataset` and the loader.
- Autograd.BinaryBackwardEntryB: does not cover Div. Div's b-gradient -g*a/b^2 is not an exact vector-Jacobian product (`Autograd.DivPartialBIsNotExact`), only a first-order one, which `Autograd.BinaryBackwardEntryBDiv` states instead.
- Loss.MseBackward: states each entry multiplied by n rather than as the quotient g[0]*2*(p[i]-t[i])/n. The two are equivalent because n > 0 whenever an entry exists.
- Loss.MseForward: requires the prediction to be well formed, and non-empty when it requires a gradient. Otherwise the Go code dereferences a nil tensor.
- Loss.CrossEntropyForward: once the rank and batch checks pass, it requires batch > 0, at least batch targets and at least batch * classes predictions. That excludes more than Go's panics. The Go loop stops at the first invalid row, so short targets or predictions past that row are never read, and Go returns the row's error. A negative batch skips the loop and returns 0 / batch = 0. A batch of 0 returns NaN, which reals cannot represent. And when every row is valid, Go reads only each row's target entry, so predictions shorter than batch * classes can still give a loss (shape [2, 3] with 4 values and targets [0, 0] reads positions 0 and 3 only). All four are excluded. `NewCPUTensorBySlice` never builds such a prediction tensor, because it insists on len(data) == product(shape).
- Loss.CrossEntropyOffTargetIsExact: covers only the positions off the target entries. The derivative -1/(p * batch) at a target entry is stated (`Loss.TargetGradient`) but not tied to the forward value, because the logarithm is an uninterpreted parameter `ln` with no derivative.
- Autograd.Binary: requires that the shape loop stays inside `b.Shape` and that the result can be built from `a.Shape`. Otherwise Go panics.
- Relu.Forward: requires a well-formed input when the input requires a gradient. Otherwise the nil result is dereferenced.
- Loader.NextBatch: requires a non-negative batch size while batches remain, because a negative one makes the slice bounds panic. It also requires the dataset to hold at least as many targets as inputs, for the reason given for `Loader.Gather`.
- Loader.Gather: requires the dataset to hold at least as many targets as inputs, while Go panics only when a batch reads an index at or past the number of targets (2 inputs, 1 target, batch size 1: Go still serves the first batch). `NewCPUTensorDataset` never builds such a dataset, because it panics unless the two lengths are equal.
- Optim.Step: requires every gradient to be at least as long as the data, as Go panics otherwise. That includes fresh tensors, whose gradient is empty.
- Shared backing arrays. Each tensor in the `Store` owns its `data` and `grad` as independent values. In Go, `NewCPUTensorBySlice` keeps the caller's slice without copying, so two tensors can share one backing array, and `Optimizer.Step` and `ZeroGrad` write through it in place. Two parameters built from one slice [1, 2], each with gradient [1, 1] and rate 0.1, end at [0.8, 1.8] in Go and at [0.9, 1.9] each in the model. The model assumes no two tensors share a `Data` or `Grad` array.

=== FILE: autograd.dfy ===
/** The differentiable operators Add, Sub, Mul, Div and Mean with their
    backward rules (core/autograd.go). */
module Autograd {
  import opened Results
  import opened Vectors
  import opened Tensors

  /** The four elementwise operators, which share one validation and wiring pattern. */
  datatype BinOp = Add | Sub | Mul | Div

  function Apply(op: BinOp, x: real, y: real): real
    requires op == Div ==> y != 0.0
  {
    match op
    case Add => x + y
    case Sub => x - y
    case Mul => x * y
    case Div => x / y
  }

  /** Some index of `sa` that `sb` also has holds a different dimension. */
  predicate ShapesDiffer(sa: seq<int>, sb: seq<int>)
  {
    exists i :: 0 <= i < |sa| && i < |sb| && sa[i] != sb[i]
  }

  /** The shape loop indexes `b.Shape` at every index of `a.Shape`: it runs
      past the end of a shorter `b.Shape` when no earlier dimension differs. */
  predicate ShapeLoopPanics(sa: seq<int>, sb: seq<int>)
  {
    |sb| < |sa| && !ShapesDiffer(sa, sb)
  }

  predicate HasZero(s: seq<real>)
  {
    exists i :: 0 <= i < |s| && s[i] == 0.0
  }

  /** The inputs on which the Go operator returns instead of panicking: either
      validation fails first, or the shape loop stays inside `b.Shape` and the
      result tensor can be built from `a.Shape` (otherwise the ignored
      constructor error leaves a nil result that is then dereferenced). */
  predicate BinaryDefined(op: BinOp, a: Tensor, b: Tensor)
  {
    || |a.data| != |b.data|
    || (&& !ShapeLoopPanics(a.shape, b.shape)
        && (ShapesDiffer(a.shape, b.shape) || (op == Div && HasZero(b.data)) || WellFormed(a)))
  }

  function Elementwise(op: BinOp, xs: seq<real>, ys: seq<real>): (r: seq<real>)
    requires |xs| == |ys|
    requires op == Div ==> !HasZero(ys)
    ensures |r| == |xs|
  {
    seq(|xs|, i requires 0 <= i < |xs| => Apply(op, xs[i], ys[i]))
  }

  function NodeOf(op: BinOp, a: Tensor, b: Tensor): Node
  {
    match op
    case Add => AddNode(a, b)
    case Sub => SubNode(a, b)
    case Mul => MulNode(a, b)
    case Div => DivNode(a, b)
  }

  /** Add, Sub, Mul and Div: the size check, then the shape check, then (Div)
      the zero check; on success the values are computed elementwise, the
      shape is a's, and a node is attached exactly when either operand
      requires a gradient. */
  function Binary(op: BinOp, a: Tensor, b: Tensor): (r: Result<Tensor>)
    requires BinaryDefined(op, a, b)
    ensures |a.data| != |b.data| ==> r == Err(SizeMismatch)
    ensures |a.data| == |b.data| ==> (r == Err(ShapeMismatch) <==> ShapesDiffer(a.shape, b.shape))
    ensures op == Div && |a.data| == |b.data| && !ShapesDiffer(a.shape, b.shape) ==>
      (r == Err(DivisionByZero) <==> HasZero(b.data))
    ensures r.Err? <==> |a.data| != |b.data| || ShapesDiffer(a.shape, b.shape) || (op == Div && HasZero(b.data))
    ensures r.Ok? ==>
      && |r.value.data| == |a.data| == |b.data|
      && (forall i :: 0 <= i < |a.data| ==> r.value.data[i] == Apply(op, a.data[i], b.data[i]))
      && r.value.shape == a.shape
      && WellFormed(r.value)
      && r.value.grad == []
      && r.value.requiresGrad == (a.requiresGrad || b.requiresGrad)
      && (r.value.creator.Some? <==> r.value.requiresGrad)
      && (r.value.creator.Some? ==> r.value.creator.value == NodeOf(op, a, b)
                                    && r.value.creator.value.Inputs() == [a, b])
  {
    if |a.data| != |b.data| then Err(SizeMismatch)
    else if ShapesDiffer(a.shape, b.shape) then Err(ShapeMismatch)
    else if op == Div && HasZero(b.data) then Err(DivisionByZero)
    else
      var result := NewTensorBySlice(Elementwise(op, a.data, b.data), a.shape, a.requiresGrad || b.requiresGrad).value;
      if result.requiresGrad then Ok(result.(creator := Some(NodeOf(op, a, b)))) else Ok(result)
  }

  /** The gradient an operator sends to its first operand for upstream value `g`. */
  function PartialA(op: BinOp, x: real, y: real, g: real): real
    requires op == Div ==> y != 0.0
  {
    match op
    case Add => g
    case Sub => g
    case Mul => g * y
    case Div => g / y
  }

  /** The gradient an operator sends to its second operand for upstream value `g`. */
  function PartialB(op: BinOp, x: real, y: real, g: real): real
    requires op == Div ==> y != 0.0
  {
    match op
    case Add => g
    case Sub => -g
    case Mul => g * x
    case Div => -g * x / (y * y)
  }

  /** What the node needs: operands of equal size and (Div) no zero divisor,
      both established by the forward pass, and an upstream gradient no
      longer than the operands where the Go loop runs over it (Add copies
      and so accepts any length). */
  predicate BinaryBackwardDefined(op: BinOp, a: Tensor, b: Tensor, g: seq<real>)
  {
    && |a.data| == |b.data|
    && (op == Div ==> !HasZero(b.data))
    && (op != Add ==> |g| <= |b.data|)
  }

  /** The backward closures of Add, Sub, Mul and Div: one segment for a, then
      one for b, each entry past the end of `g` left at 0. */
  function BinaryBackward(op: BinOp, a: Tensor, b: Tensor, g: seq<real>): (r: seq<real>)
    requires BinaryBackwardDefined(op, a, b, g)
    ensures |r| == |a.data| + |b.data|
    ensures forall i :: 0 <= i < |a.data| ==>
      r[i] == (if i < |g| then PartialA(op, a.data[i], b.data[i], g[i]) else 0.0)
    ensures forall i :: 0 <= i < |b.data| ==>
      r[|a.data| + i] == (if i < |g| then PartialB(op, a.data[i], b.data[i], g[i]) else 0.0)
  {
    var n := |a.data|;
    seq(n, i requires 0 <= i < n => if i < |g| then PartialA(op, a.data[i], b.data[i], g[i]) else 0.0)
    + seq(n, i requires 0 <= i < n => if i < |g| then PartialB(op, a.data[i], b.data[i], g[i]) else 0.0)
  }

  /** Changing one entry of an operand changes only that entry of an elementwise result. */
  lemma ElementwiseChangeA(op: BinOp, xs: seq<real>, ys: seq<real>, i: int, h: real)
    requires |xs| == |ys| && 0 <= i < |xs|
    requires op == Div ==> !HasZero(ys)
    ensures ZeroExcept(Change(Elementwise(op, xs, ys), Elementwise(op, Bump(xs, i, h), ys)), i)
  {
  }

  lemma ElementwiseChangeB(op: BinOp, xs: seq<real>, ys: seq<real>, i: int, h: real)
    requires |xs| == |ys| && 0 <= i < |xs|
    requires op == Div ==> !HasZero(Bump(ys, i, h)) && !HasZero(ys)
    ensures ZeroExcept(Change(Elementwise(op, xs, ys), Elementwise(op, xs, Bump(ys, i, h))), i)
  {
    var b := Bump(ys, i, h);
    forall j | 0 <= j < |xs| && j != i
      ensures Elementwise(op, xs, b)[j] == Elementwise(op, xs, ys)[j]
    {
      assert b[j] == ys[j];
    }
  }

  /** Cancelling a non-zero factor. */
  lemma CancelFactor(u: real, v: real, y: real)
    requires y != 0.0 && u * y == v * y
    ensures u == v
  {
    assert (u - v) * y == 0.0;
  }

  lemma DivLinear(x: real, h: real, y: real, g: real)
    requires y != 0.0
    ensures g * ((x + h) / y - x / y) == h * (g / y)
  {
    var q1, q2, q3 := (x + h) / y, x / y, g / y;
    assert q1 * y == x + h && q2 * y == x && q3 * y == g;
    assert (g * (q1 - q2)) * y == g * h;
    assert (h * q3) * y == h * g;
    CancelFactor(g * (q1 - q2), h * q3, y);
  }

  /** One entry of the vector-Jacobian product with respect to a. */
  lemma PartialAIsExact(op: BinOp, x: real, y: real, g: real, h: real, change: real, partial: real)
    requires op == Div ==> y != 0.0
    requires change == Apply(op, x + h, y) - Apply(op, x, y)
    requires partial == PartialA(op, x, y, g)
    ensures Weighs(g, change, h, partial)
  {
    match op
    case Add =>
    case Sub =>
    case Mul =>
      assert (x + h) * y - x * y == h * y;
    case Div =>
      DivLinear(x, h, y, g);
  }

  /** One entry of the vector-Jacobian product with respect to b, for Add, Sub and Mul. */
  lemma PartialBIsExact(op: BinOp, x: real, y: real, g: real, h: real, change: real, partial: real)
    requires op != Div
    requires change == Apply(op, x, y + h) - Apply(op, x, y)
    requires partial == PartialB(op, x, y, g)
    ensures Weighs(g, change, h, partial)
  {
    match op
    case Add =>
    case Sub =>
    case Mul =>
      assert x * (y + h) - x * y == h * x;
  }

  /** Entry i of the change of the result, weighted by g[i], is h times entry i of the backward rule. */
  lemma BinaryBackwardEntryA(op: BinOp, a: Tensor, b: Tensor, g: seq<real>, i: int, h: real)
    requires |a.data| == |b.data| == |g| && 0 <= i < |g|
    requires op == Div ==> !HasZero(b.data)
    ensures ZeroExcept(Change(Elementwise(op, a.data, b.data), Elementwise(op, Bump(a.data, i, h), b.data)), i)
    ensures Weighs(g[i], Change(Elementwise(op, a.data, b.data), Elementwise(op, Bump(a.data, i, h), b.data))[i],
                   h, BinaryBackward(op, a, b, g)[i])
  {
    ElementwiseChangeA(op, a.data, b.data, i, h);
    var x, y := a.data[i], b.data[i];
    assert op == Div ==> y != 0.0;
    var c := Change(Elementwise(op, a.data, b.data), Elementwise(op, Bump(a.data, i, h), b.data))[i];
    assert c == Apply(op, x + h, y) - Apply(op, x, y);
    var p := BinaryBackward(op, a, b, g)[i];
    assert p == PartialA(op, x, y, g[i]);
    PartialAIsExact(op, x, y, g[i], h, c, p);
  }

  lemma BinaryBackwardEntryB(op: BinOp, a: Tensor, b: Tensor, g: seq<real>, i: int, h: real)
    requires op != Div
    requires |a.data| == |b.data| == |g| && 0 <= i < |g|
    ensures ZeroExcept(Change(Elementwise(op, a.data, b.data), Elementwise(op, a.data, Bump(b.data, i, h))), i)
    ensures Weighs(g[i], Change(Elementwise(op, a.data, b.data), Elementwise(op, a.data, Bump(b.data, i, h)))[i],
                   h, BinaryBackward(op, a, b, g)[|a.data| + i])
  {
    ElementwiseChangeB(op, a.data, b.data, i, h);
    var x, y := a.data[i], b.data[i];
    var c := Change(Elementwise(op, a.data, b.data), Elementwise(op, a.data, Bump(b.data, i, h)))[i];
    assert c == Apply(op, x, y + h) - Apply(op, x, y);
    var p := BinaryBackward(op, a, b, g)[|a.data| + i];
    assert p == PartialB(op, x, y, g[i]);
    PartialBIsExact(op, x, y, g[i], h, c, p);
  }

  /** Div's b-gradient is only a first-order coefficient: with the divisor
      moved from y to y + h, g times the change of x / y differs from h times
      the gradient by g x h^2 / (y^2 (y + h)). Stated multiplied through. */
  predicate DivFirstOrder(g: real, change: real, h: real, partial: real, x: real, y: real)
  {
    (g * change - h * partial) * (y * y * (y + h)) == g * x * h * h
  }

  /** A quotient by y * y, multiplied back. */
  lemma QuotientBySquare(u: real, y: real)
    requires y != 0.0
    ensures (u / (y * y)) * (y * y) == u
  {
  }

  /** The polynomial identity behind DivFirstOrder, on quotients given by
      their defining products. */
  lemma DivAlgebra(x: real, y: real, g: real, h: real, q0: real, q1: real, p: real)
    requires q0 * y == x && q1 * (y + h) == x && p * (y * y) == -g * x
    ensures DivFirstOrder(g, q1 - q0, h, p, x, y)
  {
    var s := y + h;
    var a, b, c := q1 * s, q0 * y, p * (y * y);
    assert (g * (q1 - q0) - h * p) * (y * y * s) == g * a * (y * y) - g * b * (y * s) - h * c * s;
    assert g * a * (y * y) - g * b * (y * s) - h * c * s == g * x * (y * y) - g * x * (y * s) + h * g * x * s;
  }

  /** One entry of the b-gradient of Div, to first order. */
  lemma DivPartialBIsFirstOrder(x: real, y: real, g: real, h: real, change: real, partial: real)
    requires y != 0.0 && y + h != 0.0
    requires change == Apply(Div, x, y + h) - Apply(Div, x, y)
    requires partial == PartialB(Div, x, y, g)
    ensures DivFirstOrder(g, change, h, partial, x, y)
  {
    assert (x / y) * y == x;
    assert (x / (y + h)) * (y + h) == x;
    QuotientBySquare(-g * x, y);
    DivAlgebra(x, y, g, h, x / y, x / (y + h), partial);
  }

  /** And not more: with x = y = h = g = 1 the quotient moves by -1/2 while
      the gradient predicts -1. */
  lemma DivPartialBIsNotExact()
    ensures !Weighs(1.0, Apply(Div, 1.0, 1.0 + 1.0) - Apply(Div, 1.0, 1.0), 1.0, PartialB(Div, 1.0, 1.0, 1.0))
  {
  }

  /** Entry i of the b-segment of Div against the change of the result when
      b[i] moves by h (to a non-zero value): the change is confined to entry
      i, and the rule is its first-order coefficient. */
  lemma BinaryBackwardEntryBDiv(a: Tensor, b: Tensor, g: seq<real>, i: int, h: real)
    requires |a.data| == |b.data| == |g| && 0 <= i < |g|
    requires !HasZero(b.data) && b.data[i] + h != 0.0
    ensures !HasZero(Bump(b.data, i, h))
    ensures ZeroExcept(Change(Elementwise(Div, a.data, b.data), Elementwise(Div, a.data, Bump(b.data, i, h))), i)
    ensures DivFirstOrder(g[i], Change(Elementwise(Div, a.data, b.data), Elementwise(Div, a.data, Bump(b.data, i, h)))[i],
                          h, BinaryBackward(Div, a, b, g)[|a.data| + i], a.data[i], b.data[i])
  {
    var moved := Bump(b.data, i, h);
    forall j | 0 <= j < |moved|
      ensures moved[j] != 0.0
    {
      if j != i {
        assert moved[j] == b.data[j];
      }
    }
    ElementwiseChangeB(Div, a.data, b.data, i, h);
    var x, y := a.data[i], b.data[i];
    var c := Change(Elementwise(Div, a.data, b.data), Elementwise(Div, a.data, moved))[i];
    assert c == Apply(Div, x, y + h) - Apply(Div, x, y);
    var p := BinaryBackward(Div, a, b, g)[|a.data| + i];
    assert p == PartialB(Div, x, y, g[i]);
    DivPartialBIsFirstOrder(x, y, g[i], h, c, p);
  }

  /** The algebraic round trips of the forward values: (a + b) - b = a and
      (a / b) * b = a. */
  lemma AddThenSubRoundTrip(a: Tensor, b: Tensor)
    requires WellFormed(a) && a.shape == b.shape && |a.data| == |b.data|
    ensures Binary(Add, a, b).Ok?
    ensures Binary(Sub, Binary(Add, a, b).value, b).Ok?
    ensures Binary(Sub, Binary(Add, a, b).value, b).value.data == a.data
  {
    var s := Binary(Add, a, b).value;
    assert !ShapesDiffer(s.shape, b.shape);
    var d := Binary(Sub, s, b).value;
    assert forall i :: 0 <= i < |a.data| ==> d.data[i] == a.data[i];
  }

  lemma DivThenMulRoundTrip(a: Tensor, b: Tensor)
    requires WellFormed(a) && a.shape == b.shape && |a.data| == |b.data| && !HasZero(b.data)
    ensures Binary(Div, a, b).Ok?
    ensures Binary(Mul, Binary(Div, a, b).value, b).Ok?
    ensures Binary(Mul, Binary(Div, a, b).value, b).value.data == a.data
  {
    var q := Binary(Div, a, b).value;
    assert !ShapesDiffer(q.shape, b.shape);
    var m := Binary(Mul, q, b).value;
    forall i | 0 <= i < |a.data| ensures m.data[i] == a.data[i] {
      assert b.data[i] != 0.0;
      assert m.data[i] == (a.data[i] / b.data[i]) * b.data[i];
    }
  }

  /** Mean: an error on an empty input, otherwise the shape-[1] tensor holding
      the arithmetic mean, with a node exactly when the input requires a gradient. */
  function Mean(input: Tensor): (r: Result<Tensor>)
    ensures r.Err? <==> |input.data| == 0
    ensures r.Err? ==> r.error == NoData
    ensures r.Ok? ==>
      && r.value.data == [Sum(input.data) / (|input.data| as real)]
      && r.value.shape == [1]
      && WellFormed(r.value)
      && r.value.grad == []
      && r.value.requiresGrad == input.requiresGrad
      && (r.value.creator.Some? <==> input.requiresGrad)
      && (r.value.creator.Some? ==> r.value.creator.value == MeanNode(input)
                                    && r.value.creator.value.Inputs() == [input])
  {
    if |input.data| == 0 then Err(NoData)
    else
      var meanValue := Sum(input.data) / (|input.data| as real);
      var output := NewTensorBySlice([meanValue], [1], input.requiresGrad).value;
      if input.requiresGrad then Ok(output.(creator := Some(MeanNode(input)))) else Ok(output)
  }

  lemma MeanOfConstant(input: Tensor, c: real)
    requires |input.data| > 0
    requires forall i :: 0 <= i < |input.data| ==> input.data[i] == c
    ensures Mean(input).value.data == [c]
  {
    var n := |input.data|;
    assert input.data == seq(n, _ => c);
    SumConstant(n, c);
    assert ((n as real) * c) / (n as real) == c;
  }

  /** Mean's backward closure, which reads only g[0]. */
  function MeanBackward(input: Tensor, g: seq<real>): (r: seq<real>)
    requires |input.data| > 0 && |g| >= 1
    ensures |r| == |input.data|
    ensures forall i :: 0 <= i < |r| ==> r[i] == g[0] / (|input.data| as real)
  {
    seq(|input.data|, _ => g[0] / (|input.data| as real))
  }

  /** The gradient shares of the mean add back up to the upstream gradient. */
  lemma MeanBackwardSumsToUpstream(input: Tensor, g: seq<real>)
    requires |input.data| > 0 && |g| >= 1
    ensures Sum(MeanBackward(input, g)) == g[0]
  {
    var n := |input.data|;
    assert MeanBackward(input, g) == seq(n, _ => g[0] / (n as real));
    SumConstant(n, g[0] / (n as real));
  }

  /** Mean's backward rule is the exact vector-Jacobian product. */
  lemma MeanBackwardIsExact(input: Tensor, g: seq<real>, i: int, h: real)
    requires |g| == 1 && 0 <= i < |input.data|
    ensures var moved := input.(data := Bump(input.data, i, h));
      g[0] * (Mean(moved).value.data[0] - Mean(input).value.data[0]) == h * MeanBackward(input, g)[i]
  {
    var n := |input.data| as real;
    SumBump(input.data, i, h);
    assert (Sum(input.data) + h) / n - Sum(input.data) / n == h / n;
  }
}

=== FILE: dataloader.dfy ===
/** Mini-batch iteration over a dataset (data/dataloader.go). The random
    source of Reset is a parameter: the draws rand.Shuffle would make. */
module Loader {
  import opened Results
  import opened Tensors
  import opened Datasets

  /** DataLoader; `currentIdx` and `indices` are the unexported cursor and order. */
  datatype DataLoader = DataLoader(
    dataset: TensorDataset,
    batchSize: int,
    shuffle: bool,
    currentIdx: int,
    indices: seq<int>)

  /** The two slices NextBatch returns. */
  datatype Batch = Batch(inputs: seq<Tensor>, targets: seq<Tensor>)

  /** 0, 1, ..., n - 1. */
  function Range(n: nat): (r: seq<int>)
    ensures |r| == n
    ensures forall i :: 0 <= i < n ==> r[i] == i
  {
    seq(n, i => i)
  }

  /** Each of 0, ..., n - 1 occurs in Range(n) exactly once. */
  lemma {:induction false} RangeCounts(n: nat)
    ensures forall i :: 0 <= i < n ==> multiset(Range(n))[i] == 1
    ensures forall i :: i < 0 || i >= n ==> multiset(Range(n))[i] == 0
  {
    if n > 0 {
      RangeCounts(n - 1);
      assert Range(n) == Range(n - 1) + [n - 1];
    }
  }

  /** NewDataLoader: the identity order and the cursor at the start. */
  function NewDataLoader(dataset: TensorDataset, batchSize: int, shuffle: bool): (dl: DataLoader)
    ensures dl.dataset == dataset && dl.batchSize == batchSize && dl.shuffle == shuffle
    ensures dl.currentIdx == 0
    ensures |dl.indices| == Len(dataset)
    ensures forall i :: 0 <= i < |dl.indices| ==> dl.indices[i] == i
  {
    DataLoader(dataset, batchSize, shuffle, 0, Range(Len(dataset)))
  }

  /** rand.Shuffle(n, swap) calls swap(i, j) for i = n - 1 down to 1 with a
      random j in [0, i]: draw k is the j paired with i = n - 1 - k. */
  predicate ValidDraws(n: int, draws: seq<int>)
  {
    && |draws| == (if n > 1 then n - 1 else 0)
    && forall k :: 0 <= k < |draws| ==> 0 <= draws[k] <= n - 1 - k
  }

  /** The swap closure of Reset. */
  function Swap(s: seq<int>, i: int, j: int): (r: seq<int>)
    requires 0 <= i < |s| && 0 <= j < |s|
    ensures |r| == |s| && r[i] == s[j] && r[j] == s[i]
    ensures forall k :: 0 <= k < |s| && k != i && k != j ==> r[k] == s[k]
    ensures multiset(r) == multiset(s)
  {
    s[i := s[j]][j := s[i]]
  }

  /** The swaps of draws k, k + 1, ... applied in order. */
  function FisherYates(s: seq<int>, draws: seq<int>, k: nat): (r: seq<int>)
    requires k <= |draws| <= |s|
    requires forall m :: k <= m < |draws| ==> 0 <= draws[m] <= |s| - 1 - m
    ensures |r| == |s|
    ensures multiset(r) == multiset(s)
    decreases |draws| - k
  {
    if k == |draws| then s
    else FisherYates(Swap(s, |s| - 1 - k, draws[k]), draws, k + 1)
  }

  /** Reset: the cursor goes back to the start and, when shuffling, the
      order is permuted by the given draws. */
  function Reset(dl: DataLoader, draws: seq<int>): (r: DataLoader)
    requires dl.shuffle ==> ValidDraws(|dl.indices|, draws)
    ensures r == dl.(currentIdx := 0, indices := r.indices)
    ensures multiset(r.indices) == multiset(dl.indices)
    ensures !dl.shuffle ==> r.indices == dl.indices
  {
    if dl.shuffle then dl.(currentIdx := 0, indices := FisherYates(dl.indices, draws, 0))
    else dl.(currentIdx := 0)
  }

  /** Iterate: the loader after Reset, on which the returned closure calls
      NextBatch. The cursor is back at the start, the same indices are kept
      in a possibly new order, and nothing else changes. The closure can be
      called unless the batch size is negative and there are samples (or the
      dataset lacks targets); its first call reports "no more batches" on an
      empty order and otherwise, with a positive batch size and every index
      inside the dataset, hands out the first min(batchSize, n) samples of
      the new order. */
  function Iterate(dl: DataLoader, draws: seq<int>): (r: DataLoader)
    requires dl.shuffle ==> ValidDraws(|dl.indices|, draws)
    ensures r.currentIdx == 0
    ensures r == dl.(currentIdx := 0, indices := r.indices)
    ensures multiset(r.indices) == multiset(dl.indices)
    ensures !dl.shuffle ==> r.indices == dl.indices
    ensures IndicesInRange(r) <==> IndicesInRange(dl)
    ensures NextBatchDefined(r) <==>
      (|dl.indices| > 0 ==> dl.batchSize >= 0) && |dl.dataset.inputs| <= |dl.dataset.targets|
    ensures NextBatchDefined(r) ==> StartsEpoch(r)
  {
    var r := Reset(dl, draws);
    PermutationKeepsRange(r.indices, dl.indices, Len(dl.dataset));
    assert |r.indices| == |dl.indices|;
    var m := Min(dl.batchSize, |r.indices|);
    assert dl.batchSize >= 0 ==> r.indices[0..m] == r.indices[..m];
    r
  }

  /** The first NextBatch from the start of an order: "no more batches" on
      an empty order; otherwise, with a positive batch size and in-range
      indices, the first min(batchSize, n) samples. */
  predicate StartsEpoch(r: DataLoader)
    requires NextBatchDefined(r) && r.currentIdx == 0
  {
    && (|r.indices| == 0 ==> NextBatch(r) == (Err(NoMoreBatches), r))
    && (|r.indices| > 0 && r.batchSize > 0 && IndicesInRange(r) ==>
          var m := Min(r.batchSize, |r.indices|);
          && AllIn(r.indices[..m], Len(r.dataset))
          && NextBatch(r) == (Ok(Batch(Pick(r.dataset.inputs, r.indices[..m]), Pick(r.dataset.targets, r.indices[..m]))),
                              r.(currentIdx := m)))
  }

  /** Two orders of the same indices are in range together. */
  lemma PermutationKeepsRange(xs: seq<int>, ys: seq<int>, n: int)
    requires multiset(xs) == multiset(ys)
    ensures AllIn(xs, n) <==> AllIn(ys, n)
  {
    forall k | 0 <= k < |xs| && AllIn(ys, n)
      ensures 0 <= xs[k] < n
    {
      assert xs[k] in multiset(ys);
    }
    forall k | 0 <= k < |ys| && AllIn(xs, n)
      ensures 0 <= ys[k] < n
    {
      assert ys[k] in multiset(xs);
    }
  }

  /** Every index is in [0, n). */
  predicate AllIn(idx: seq<int>, n: int)
  {
    forall k :: 0 <= k < |idx| ==> 0 <= idx[k] < n
  }

  /** The elements of `xs` at positions `idx`, in order. */
  function Pick<T>(xs: seq<T>, idx: seq<int>): (r: seq<T>)
    requires AllIn(idx, |xs|)
    ensures |r| == |idx|
  {
    seq(|idx|, k requires 0 <= k < |idx| => xs[idx[k]])
  }

  lemma PickConcat<T>(xs: seq<T>, a: seq<int>, b: seq<int>)
    requires AllIn(a, |xs|) && AllIn(b, |xs|)
    ensures Pick(xs, a + b) == Pick(xs, a) + Pick(xs, b)
  {
  }

  /** GetItem for each index, in order, stopping at the first error. */
  function Gather(ds: TensorDataset, idxs: seq<int>): (r: Result<Batch>)
    requires |ds.inputs| <= |ds.targets|
    ensures r.Err? <==> !AllIn(idxs, Len(ds))
    ensures r.Err? ==> r.error == IndexOutOfRange
    ensures r.Ok? ==> r.value == Batch(Pick(ds.inputs, idxs), Pick(ds.targets, idxs))
    decreases |idxs|
  {
    if |idxs| == 0 then Ok(Batch([], []))
    else
      var last := idxs[|idxs| - 1];
      match Gather(ds, idxs[..|idxs| - 1])
      case Err(e) => Err(e)
      case Ok(b) =>
        match GetItem(ds, last)
        case Err(e) => Err(e)
        case Ok(pair) => Ok(Batch(b.inputs + [pair.0], b.targets + [pair.1]))
  }

  /** NextBatch slices `indices[start:end]`, which panics when a negative batch
      size puts `end` before `start`; the cursor is never negative; GetItem
      reads a target for every in-range input index. */
  predicate NextBatchDefined(dl: DataLoader)
  {
    && dl.currentIdx >= 0
    && (dl.currentIdx < |dl.indices| ==> dl.batchSize >= 0)
    && |dl.dataset.inputs| <= |dl.dataset.targets|
  }

  function Min(a: int, b: int): int
  {
    if a <= b then a else b
  }

  /** NextBatch: past the end, an error and no change; otherwise the samples
      at indices[start .. min(start + batchSize, n)], after which the cursor
      moves to the end of the batch. A failing GetItem leaves the cursor. */
  function NextBatch(dl: DataLoader): (r: (Result<Batch>, DataLoader))
    requires NextBatchDefined(dl)
    ensures dl.currentIdx >= |dl.indices| ==> r == (Err(NoMoreBatches), dl)
    ensures r.0.Err? ==> r.1 == dl
    ensures r.0.Ok? ==>
      var start, end := dl.currentIdx, Min(dl.currentIdx + dl.batchSize, |dl.indices|);
      && start < |dl.indices|
      && start <= end <= |dl.indices|
      && r.1 == dl.(currentIdx := end)
      && AllIn(dl.indices[start..end], Len(dl.dataset))
      && r.0.value == Batch(Pick(dl.dataset.inputs, dl.indices[start..end]), Pick(dl.dataset.targets, dl.indices[start..end]))
    ensures dl.currentIdx < |dl.indices| ==>
      (r.0.Ok? <==> AllIn(dl.indices[dl.currentIdx..Min(dl.currentIdx + dl.batchSize, |dl.indices|)], Len(dl.dataset)))
  {
    if dl.currentIdx >= |dl.indices| then (Err(NoMoreBatches), dl)
    else
      var start := dl.currentIdx;
      var end := Min(start + dl.batchSize, |dl.indices|);
      match Gather(dl.dataset, dl.indices[start..end])
      case Err(e) => (Err(e), dl)
      case Ok(b) => (Ok(b), dl.(currentIdx := end))
  }

  /** A batch size of zero hands out empty batches without moving the cursor,
      so iteration never ends. */
  lemma ZeroBatchSizeStalls(dl: DataLoader)
    requires NextBatchDefined(dl) && dl.batchSize == 0
    requires dl.currentIdx < |dl.indices|
    ensures NextBatch(dl) == (Ok(Batch([], [])), dl)
  {
  }

  /** Every index names a sample of the dataset. */
  predicate IndicesInRange(dl: DataLoader)
  {
    AllIn(dl.indices, Len(dl.dataset))
  }

  function AllInputs(batches: seq<Batch>): seq<Tensor>
  {
    if |batches| == 0 then [] else batches[0].inputs + AllInputs(batches[1..])
  }

  function AllTargets(batches: seq<Batch>): seq<Tensor>
  {
    if |batches| == 0 then [] else batches[0].targets + AllTargets(batches[1..])
  }

  /** The batches NextBatch hands out, with a positive batch size, until it
      reports an error; and the loader at that point. */
  function Epoch(dl: DataLoader): (r: (seq<Batch>, DataLoader))
    requires NextBatchDefined(dl) && dl.batchSize > 0
    ensures NextBatchDefined(r.1) && r.1.batchSize > 0
    decreases |dl.indices| - dl.currentIdx
  {
    var (res, next) := NextBatch(dl);
    if res.Err? then ([], dl)
    else
      var (rest, last) := Epoch(next);
      ([res.value] + rest, last)
  }

  /** With a positive batch size and in-range indices, one epoch hands out the
      samples at indices[currentIdx..] in order, and then NextBatch reports
      that there are no more batches. */
  lemma {:induction false} EpochCoversRemainingIndices(dl: DataLoader)
    requires NextBatchDefined(dl) && dl.batchSize > 0 && IndicesInRange(dl)
    requires dl.currentIdx <= |dl.indices|
    ensures AllInputs(Epoch(dl).0) == Pick(dl.dataset.inputs, dl.indices[dl.currentIdx..])
    ensures AllTargets(Epoch(dl).0) == Pick(dl.dataset.targets, dl.indices[dl.currentIdx..])
    ensures NextBatch(Epoch(dl).1) == (Err(NoMoreBatches), Epoch(dl).1)
    decreases |dl.indices| - dl.currentIdx
  {
    if dl.currentIdx < |dl.indices| {
      var next := EpochStep(dl);
      EpochCoversRemainingIndices(next);
      PickSplit(dl.dataset.inputs, dl.indices, dl.currentIdx, next.currentIdx);
      PickSplit(dl.dataset.targets, dl.indices, dl.currentIdx, next.currentIdx);
    }
  }

  /** Gathering indices[i..] is gathering indices[i..j] and then indices[j..]. */
  lemma PickSplit<T>(xs: seq<T>, idx: seq<int>, i: int, j: int)
    requires 0 <= i <= j <= |idx| && AllIn(idx, |xs|)
    ensures AllIn(idx[i..], |xs|) && AllIn(idx[i..j], |xs|) && AllIn(idx[j..], |xs|)
    ensures Pick(xs, idx[i..]) == Pick(xs, idx[i..j]) + Pick(xs, idx[j..])
  {
    assert idx[i..] == idx[i..j] + idx[j..];
    PickConcat(xs, idx[i..j], idx[j..]);
  }

  /** One step of an epoch with samples left, a positive batch size and
      in-range indices: NextBatch succeeds with the batch at
      indices[start..end], and the epoch is that batch followed by the epoch
      from `end`. Returns the loader after the batch. */
  lemma EpochStep(dl: DataLoader) returns (next: DataLoader)
    requires NextBatchDefined(dl) && dl.batchSize > 0 && IndicesInRange(dl)
    requires dl.currentIdx < |dl.indices|
    ensures dl.currentIdx < next.currentIdx <= |dl.indices|
    ensures next == dl.(currentIdx := next.currentIdx)
    ensures NextBatchDefined(next) && IndicesInRange(next)
    ensures AllInputs(Epoch(dl).0) == Pick(dl.dataset.inputs, dl.indices[dl.currentIdx..next.currentIdx]) + AllInputs(Epoch(next).0)
    ensures AllTargets(Epoch(dl).0) == Pick(dl.dataset.targets, dl.indices[dl.currentIdx..next.currentIdx]) + AllTargets(Epoch(next).0)
    ensures Epoch(dl).1 == Epoch(next).1
  {
    var res;
    res, next := NextBatch(dl).0, NextBatch(dl).1;
    var rest := Epoch(next).0;
    assert Epoch(dl).0 == [res.value] + rest;
    assert ([res.value] + rest)[1..] == rest;
  }

  /** The same epoch comes in ceil(n / batchSize) batches, all but the last
      holding batchSize samples. */
  lemma {:induction false} EpochBatchSizes(dl: DataLoader)
    requires NextBatchDefined(dl) && dl.batchSize > 0 && IndicesInRange(dl)
    requires dl.currentIdx <= |dl.indices|
    ensures var batches, n := Epoch(dl).0, |dl.indices| - dl.currentIdx;
      && (|batches| - 1) * dl.batchSize < n <= |batches| * dl.batchSize
      && (forall b :: 0 <= b < |batches| - 1 ==> |batches[b].inputs| == dl.batchSize)
    decreases |dl.indices| - dl.currentIdx
  {
    var (res, next) := NextBatch(dl);
    if res.Ok? {
      EpochBatchSizes(next);
      var rest := Epoch(next).0;
      assert ([res.value] + rest)[1..] == rest;
      BatchCount(|dl.indices| - dl.currentIdx, |dl.indices| - next.currentIdx, dl.batchSize, |rest|);
    }
  }

  lemma NegativeFactor(x: int, b: int)
    requires b > 0 && x * b < 0
    ensures x < 0
  {
  }

  /** Taking one batch of min(b, n) off n samples adds one to the count. */
  lemma BatchCount(n: int, m: int, b: int, c: int)
    requires b > 0 && n > 0 && m == (if n <= b then 0 else n - b)
    requires (c - 1) * b < m <= c * b
    ensures c * b < n <= (c + 1) * b
  {
    assert (c + 1) * b == c * b + b;
    if n <= b {
      NegativeFactor(c - 1, b);
    }
  }

  /** With a positive batch size, a fresh loader over a dataset with as many
      targets as inputs, reset by Iterate with any valid draws, hands out
      every sample exactly once over one epoch, in the order of its index
      permutation, and then reports that there are no more batches. (With
      batch size 0 the epoch never ends: ZeroBatchSizeStalls.) */
  lemma IterateVisitsEverySampleOnce(ds: TensorDataset, batchSize: int, shuffle: bool, draws: seq<int>)
    requires |ds.inputs| == |ds.targets|
    requires batchSize > 0
    requires shuffle ==> ValidDraws(Len(ds), draws)
    ensures var dl := Iterate(NewDataLoader(ds, batchSize, shuffle), draws);
      && IndicesInRange(dl)
      && |dl.indices| == Len(ds)
      && (forall i :: 0 <= i < Len(ds) ==> multiset(dl.indices)[i] == 1)
      && AllInputs(Epoch(dl).0) == Pick(ds.inputs, dl.indices)
      && AllTargets(Epoch(dl).0) == Pick(ds.targets, dl.indices)
      && NextBatch(Epoch(dl).1) == (Err(NoMoreBatches), Epoch(dl).1)
  {
    var start := NewDataLoader(ds, batchSize, shuffle);
    assert start.indices == Range(Len(ds));
    var dl := Iterate(start, draws);
    RangeCounts(Len(ds));
    forall k | 0 <= k < |dl.indices|
      ensures 0 <= dl.indices[k] < Len(ds)
    {
      var x := dl.indices[k];
      assert x in multiset(dl.indices);
    }
    EpochCoversRemainingIndices(dl);
    assert dl.indices[0..] == dl.indices;
  }
}

=== FILE: dataset.dfy ===
/** A dataset of paired input and target tensors (data/dataset.go). */
module Datasets {
  import opened Results
  import opened Tensors

  /** CPUTensorDataset. The slices hold pointers; the model holds the tensors. */
  datatype TensorDataset = TensorDataset(inputs: seq<Tensor>, targets: seq<Tensor>)

  /** Len: the number of inputs. */
  function Len(d: TensorDataset): nat
  {
    |d.inputs|
  }

  /** GetItem's bounds check is on the inputs only; reading the target
      at an index the inputs have needs the targets to have it too. */
  predicate GetItemDefined(d: TensorDataset, index: int)
  {
    0 <= index < |d.inputs| ==> index < |d.targets|
  }

  /** GetItem: the index-th pair, or an error outside [0, Len). */
  function GetItem(d: TensorDataset, index: int): (r: Result<(Tensor, Tensor)>)
    requires GetItemDefined(d, index)
    ensures r.Err? <==> index < 0 || index >= Len(d)
    ensures r.Err? ==> r.error == IndexOutOfRange
    ensures r.Ok? ==> r.value.0 == d.inputs[index] && r.value.1 == d.targets[index]
  {
    if index < 0 || index >= |d.inputs| then Err(IndexOutOfRange)
    else Ok((d.inputs[index], d.targets[index]))
  }

  /** NewCPUTensorDataset panics unless the two slices have the same length,
      so every dataset it builds answers GetItem for every index. */
  function NewDataset(inputs: seq<Tensor>, targets: seq<Tensor>): (d: TensorDataset)
    requires |inputs| == |targets|
    ensures Len(d) == |inputs| == |d.targets|
    ensures forall index :: GetItemDefined(d, index)
    ensures forall index :: 0 <= index < |inputs| ==> GetItem(d, index) == Ok((inputs[index], targets[index]))
  {
    TensorDataset(inputs, targets)
  }
}

=== FILE: graph.dfy ===
/** The Creator record seen from the graph: one backward rule per node kind,
    and the fact that every node a forward operator attaches can run its
    rule on an upstream gradient shaped like the operator's output. */
module Graph {
  import opened Results
  import opened Vectors
  import opened Tensors
  import Autograd
  import Relu
  import Loss

  /** The total number of values held by `ts`. */
  function TotalSize(ts: seq<Tensor>): nat
  {
    if |ts| == 0 then 0 else TotalSize(ts[..|ts| - 1]) + |ts[|ts| - 1].data|
  }

  /** Every node has one or two inputs; their total size is the sum of the two. */
  lemma InputsSize(n: Node)
    ensures 1 <= |n.Inputs()| <= 2
    ensures TotalSize(n.Inputs()) == |n.Inputs()[0].data| + (if |n.Inputs()| == 2 then |n.Inputs()[1].data| else 0)
  {
    var inputs := n.Inputs();
    assert inputs[..0] == [];
    assert inputs[..1] == [inputs[0]];
    assert TotalSize(inputs[..1]) == |inputs[0].data|;
    if |inputs| == 2 {
      assert inputs[..2][..1] == inputs[..1];
    }
  }

  /** The fused loss nodes list two inputs but return a gradient for the
      predictions only. */
  predicate IsLossNode(n: Node)
  {
    n.MseNode? || n.CrossEntropyNode?
  }

  /** What the rule of `n` needs of its recorded operands and of the upstream gradient. */
  predicate BackwardDefined(n: Node, g: seq<real>)
  {
    match n
    case AddNode(a, b) => Autograd.BinaryBackwardDefined(Autograd.Add, a, b, g)
    case SubNode(a, b) => Autograd.BinaryBackwardDefined(Autograd.Sub, a, b, g)
    case MulNode(a, b) => Autograd.BinaryBackwardDefined(Autograd.Mul, a, b, g)
    case DivNode(a, b) => Autograd.BinaryBackwardDefined(Autograd.Div, a, b, g)
    case MeanNode(input) => |input.data| > 0 && |g| >= 1
    case ReluNode(input) => Relu.BackwardDefined(input, g)
    case MseNode(p, t) => Loss.MseBackwardDefined(p, t, g)
    case CrossEntropyNode(p, t, b, c) => Loss.CeBackwardDefined(p, t, b, c, g)
  }

  /** The Function's Backward: the node's rule applied to the upstream
      gradient. The result is the inputs' gradient segments laid end to end,
      one per input, except for the loss nodes, whose result covers the
      predictions alone. */
  function Backward(n: Node, g: seq<real>): (r: seq<real>)
    requires BackwardDefined(n, g)
    ensures !IsLossNode(n) ==> |r| == TotalSize(n.Inputs())
    ensures IsLossNode(n) ==> |r| == |n.Inputs()[0].data|
  {
    InputsSize(n);
    match n
    case AddNode(a, b) => Autograd.BinaryBackward(Autograd.Add, a, b, g)
    case SubNode(a, b) => Autograd.BinaryBackward(Autograd.Sub, a, b, g)
    case MulNode(a, b) => Autograd.BinaryBackward(Autograd.Mul, a, b, g)
    case DivNode(a, b) => Autograd.BinaryBackward(Autograd.Div, a, b, g)
    case MeanNode(input) => Autograd.MeanBackward(input, g)
    case ReluNode(input) => Relu.Backward(input, g)
    case MseNode(p, t) => Loss.MseBackward(p, t, g)
    case CrossEntropyNode(p, t, b, c) => Loss.CeBackward(p, t, b, c, g)
  }

  /** The gradient segment of input `k`: the slice of the backward result
      that starts after the segments of the inputs before it. */
  function Segment(n: Node, g: seq<real>, k: int): (s: seq<real>)
    requires BackwardDefined(n, g) && !IsLossNode(n) && 0 <= k < |n.Inputs()|
    ensures |s| == |n.Inputs()[k].data|
  {
    var inputs := n.Inputs();
    TotalSizePrefix(inputs, k);
    Backward(n, g)[TotalSize(inputs[..k])..TotalSize(inputs[..k + 1])]
  }

  lemma {:induction false} TotalSizePrefix(ts: seq<Tensor>, k: int)
    requires 0 <= k < |ts|
    ensures TotalSize(ts[..k + 1]) == TotalSize(ts[..k]) + |ts[k].data|
    ensures TotalSize(ts[..k + 1]) <= TotalSize(ts)
    decreases |ts|
  {
    assert ts[..k + 1][..k] == ts[..k];
    if k + 1 < |ts| {
      TotalSizePrefix(ts[..|ts| - 1], k);
      assert ts[..|ts| - 1][..k + 1] == ts[..k + 1];
    } else {
      assert ts[..k + 1] == ts;
    }
  }

  /** A binary operator's node, run on a gradient of the output's size,
      returns one segment per operand: the rule's a-gradient, then its
      b-gradient. */
  lemma BinaryNodeAcceptsOutputGradient(op: Autograd.BinOp, a: Tensor, b: Tensor, g: seq<real>)
    requires Autograd.BinaryDefined(op, a, b)
    requires Autograd.Binary(op, a, b).Ok? && Autograd.Binary(op, a, b).value.requiresGrad
    requires |g| == |Autograd.Binary(op, a, b).value.data|
    ensures var n := Autograd.Binary(op, a, b).value.creator.value;
      && BackwardDefined(n, g)
      && Segment(n, g, 0) == Autograd.BinaryBackward(op, a, b, g)[..|a.data|]
      && Segment(n, g, 1) == Autograd.BinaryBackward(op, a, b, g)[|a.data|..]
  {
    var n := Autograd.Binary(op, a, b).value.creator.value;
    assert n.Inputs() == [a, b];
    assert n.Inputs()[..1] == [a] && n.Inputs()[..2] == [a, b];
    assert TotalSize([a]) == |a.data|;
    assert [a, b][..1] == [a];
    assert TotalSize([a, b]) == |a.data| + |b.data|;
  }

  /** Mean's node runs on any gradient of its one-value output. */
  lemma MeanNodeAcceptsOutputGradient(input: Tensor, g: seq<real>)
    requires Autograd.Mean(input).Ok? && Autograd.Mean(input).value.requiresGrad
    requires |g| == |Autograd.Mean(input).value.data|
    ensures var n := Autograd.Mean(input).value.creator.value;
      BackwardDefined(n, g) && Segment(n, g, 0) == Autograd.MeanBackward(input, g)
  {
    var n := Autograd.Mean(input).value.creator.value;
    assert n.Inputs()[..1] == [input] && n.Inputs()[..0] == [];
    assert TotalSize([input]) == |input.data|;
  }

  /** ReLU's node runs on any gradient of its output's size. */
  lemma ReluNodeAcceptsOutputGradient(input: Tensor, g: seq<real>)
    requires Relu.ForwardDefined(input)
    requires Relu.Forward(input).Some? && Relu.Forward(input).value.requiresGrad
    requires |g| == |Relu.Forward(input).value.data|
    ensures var n := Relu.Forward(input).value.creator.value;
      BackwardDefined(n, g) && Segment(n, g, 0) == Relu.Backward(input, g)
  {
    var n := Relu.Forward(input).value.creator.value;
    assert n.Inputs()[..1] == [input] && n.Inputs()[..0] == [];
    assert TotalSize([input]) == |input.data|;
  }

  /** The MSE node runs on any gradient of its one-value output, and returns
      a gradient for the predictions only. */
  lemma MseNodeAcceptsOutputGradient(p: Tensor, t: Tensor, g: seq<real>)
    requires Loss.MseDefined(p, t)
    requires Loss.MseForward(p, t).Ok? && Loss.MseForward(p, t).value.Some?
    requires Loss.MseForward(p, t).value.value.requiresGrad
    requires |g| == |Loss.MseForward(p, t).value.value.data|
    ensures var n := Loss.MseForward(p, t).value.value.creator.value;
      BackwardDefined(n, g) && |Backward(n, g)| == |p.data| && Backward(n, g) == Loss.MseBackward(p, t, g)
  {
  }

  /** The cross-entropy node runs on any gradient of its one-value output,
      and returns a gradient for the predictions only. */
  lemma CrossEntropyNodeAcceptsOutputGradient(p: Tensor, t: Tensor, ln: real -> real, g: seq<real>)
    requires Loss.CeDefined(p, t)
    requires Loss.CrossEntropyForward(p, t, ln).Ok? && Loss.CrossEntropyForward(p, t, ln).value.requiresGrad
    requires |g| == |Loss.CrossEntropyForward(p, t, ln).value.data|
    ensures var n := Loss.CrossEntropyForward(p, t, ln).value.creator.value;
      && BackwardDefined(n, g) && |Backward(n, g)| == |p.data|
      && Backward(n, g) == Loss.CeBackward(p, t, p.shape[0], p.shape[1], g)
  {
  }

  lemma SumOfThree(s: seq<real>)
    requires |s| == 3
    ensures Sum(s) == s[0] + s[1] + s[2]
  {
    assert s[..2][..1] == s[..1] && s[..1][..0] == [];
    assert Sum(s[..1]) == s[0];
    assert Sum(s[..2]) == s[0] + s[1];
  }

  /** The backward pass of loss = mean(a * b) for a = (1, 2, 3) and
      b = (4, 5, 6): the loss is 32/3; seeding its node with 1 gives the
      product's node the gradient (1/3, 1/3, 1/3), and the product's node
      gives d loss / d a = b / 3 and d loss / d b = a / 3. */
  lemma MulThenMeanExample(a: Tensor, b: Tensor)
    requires a.data == [1.0, 2.0, 3.0] && a.shape == [3] && a.requiresGrad
    requires b.data == [4.0, 5.0, 6.0] && b.shape == [3]
    ensures Autograd.BinaryDefined(Autograd.Mul, a, b)
    ensures var product := Autograd.Binary(Autograd.Mul, a, b);
      && product.Ok?
      && Autograd.Mean(product.value).Ok?
      && var loss := Autograd.Mean(product.value).value;
      && loss.data == [32.0 / 3.0]
      && loss.creator == Some(MeanNode(product.value))
      && BackwardDefined(loss.creator.value, [1.0])
      && Backward(loss.creator.value, [1.0]) == [1.0 / 3.0, 1.0 / 3.0, 1.0 / 3.0]
      && product.value.creator == Some(MulNode(a, b))
      && BackwardDefined(MulNode(a, b), [1.0 / 3.0, 1.0 / 3.0, 1.0 / 3.0])
      && Backward(MulNode(a, b), [1.0 / 3.0, 1.0 / 3.0, 1.0 / 3.0])
         == [4.0 / 3.0, 5.0 / 3.0, 2.0, 1.0 / 3.0, 2.0 / 3.0, 1.0]
  {
    assert Product(a.shape) == 3;
    var product := Autograd.Binary(Autograd.Mul, a, b).value;
    assert product.data == [4.0, 10.0, 18.0];
    SumOfThree(product.data);
    var dProduct := Backward(MeanNode(product), [1.0]);
    assert dProduct == [1.0 / 3.0, 1.0 / 3.0, 1.0 / 3.0];
  }
}

=== FILE: loss.dfy ===
/** The two loss functions, each a fused operator with its own backward
    rule (nn/loss.go). */
module Loss {
  import opened Results
  import opened Vectors
  import opened Tensors
  import Autograd

  // ---------------------------------------------------------------- MSE

  function Diff(p: seq<real>, t: seq<real>): (r: seq<real>)
    requires |p| == |t|
    ensures |r| == |p|
    ensures forall i :: 0 <= i < |p| ==> r[i] == p[i] - t[i]
  {
    seq(|p|, i requires 0 <= i < |p| => p[i] - t[i])
  }

  function Square(x: real): (r: real)
    ensures r >= 0.0
  {
    x * x
  }

  /** (p[i] - t[i])^2 for every i. */
  function SquaredErrors(p: seq<real>, t: seq<real>): (r: seq<real>)
    requires |p| == |t|
    ensures |r| == |p|
    ensures forall i :: 0 <= i < |p| ==> r[i] == Square(p[i] - t[i])
  {
    seq(|p|, i requires 0 <= i < |p| => Square(p[i] - t[i]))
  }

  /** Reference definition: the mean of the squared differences. */
  function MeanSquaredError(p: seq<real>, t: seq<real>): real
    requires |p| == |t| > 0
  {
    Sum(SquaredErrors(p, t)) / (|p| as real)
  }

  /** MSELoss.Forward ignores the errors of the tensor operations it calls:
      a malformed prediction leaves the difference tensor nil, which Mul
      dereferences; an empty one leaves the loss nil, which gets a node
      when predictions require a gradient. */
  predicate MseDefined(p: Tensor, t: Tensor)
  {
    |p.data| != |t.data| || (WellFormed(p) && (|p.data| > 0 || !p.requiresGrad))
  }

  /** MSELoss.Forward: the mean of the squared differences, as a
      shape-[1] tensor whose node is the fused MSE node (it replaces the
      Mean node). On empty inputs without a gradient the loss is nil:
      Ok(None). */
  function MseForward(p: Tensor, t: Tensor): (r: Result<Option<Tensor>>)
    requires MseDefined(p, t)
    ensures r.Err? <==> |p.data| != |t.data|
    ensures r.Err? ==> r.error == LossSizeMismatch
    ensures r == Ok(None) <==> |p.data| == |t.data| == 0
    ensures r.Ok? && r.value.Some? ==>
      var loss := r.value.value;
      && loss.data == [MeanSquaredError(p.data, t.data)]
      && loss.shape == [1]
      && WellFormed(loss)
      && loss.grad == []
      && loss.requiresGrad == p.requiresGrad
      && loss.creator == (if p.requiresGrad then Some(MseNode(p, t)) else None)
  {
    if |p.data| != |t.data| then Err(LossSizeMismatch)
    else
      var diff := NewTensorBySlice(Diff(p.data, t.data), p.shape, p.requiresGrad).value;
      assert diff.data == Diff(p.data, t.data);
      var squared := Autograd.Binary(Autograd.Mul, diff, diff).value;
      assert squared.data == SquaredErrors(p.data, t.data) by {
        forall i | 0 <= i < |p.data|
          ensures squared.data[i] == SquaredErrors(p.data, t.data)[i]
        {
          assert squared.data[i] == Autograd.Apply(Autograd.Mul, diff.data[i], diff.data[i]);
        }
      }
      match Autograd.Mean(squared)
      case Err(_) => Ok(None)
      case Ok(loss) =>
        if p.requiresGrad then Ok(Some(loss.(creator := Some(MseNode(p, t))))) else Ok(Some(loss))
  }

  lemma {:induction false} SumNonNegative(s: seq<real>)
    requires forall i :: 0 <= i < |s| ==> s[i] >= 0.0
    ensures Sum(s) >= 0.0
  {
    if |s| > 0 {
      SumNonNegative(s[..|s| - 1]);
    }
  }

  /** The mean squared error is never negative. */
  lemma MseIsNonNegative(p: Tensor, t: Tensor)
    requires MseDefined(p, t) && |p.data| == |t.data| > 0
    ensures MseForward(p, t).Ok? && MseForward(p, t).value.Some?
    ensures MseForward(p, t).value.value.data[0] >= 0.0
  {
    MeanSquaredErrorNonNegative(p.data, t.data);
  }

  lemma MeanSquaredErrorNonNegative(p: seq<real>, t: seq<real>)
    requires |p| == |t| > 0
    ensures MeanSquaredError(p, t) >= 0.0
  {
    SumNonNegative(SquaredErrors(p, t));
  }

  /** A quotient by n, multiplied back by n. */
  lemma TimesDivisor(q: real, x: real, n: real)
    requires n != 0.0 && q == x / n
    ensures q * n == x
  {
  }

  /** MSE's backward closure reads grad[0] once per prediction. */
  predicate MseBackwardDefined(p: Tensor, t: Tensor, g: seq<real>)
  {
    |p.data| == |t.data| && (|p.data| > 0 ==> |g| >= 1)
  }

  /** MSE's backward closure: 2 (p[i] - t[i]) / n, scaled by grad[0], stated
      multiplied through by the number n of predictions. The gradient goes to
      the predictions only. */
  function MseBackward(p: Tensor, t: Tensor, g: seq<real>): (r: seq<real>)
    requires MseBackwardDefined(p, t, g)
    ensures |r| == |p.data|
    ensures forall i :: 0 <= i < |r| ==> r[i] * (|p.data| as real) == g[0] * 2.0 * (p.data[i] - t.data[i])
  {
    var r := seq(|p.data|, i requires 0 <= i < |p.data| => g[0] * 2.0 * (p.data[i] - t.data[i]) / (|p.data| as real));
    assert forall i :: 0 <= i < |r| ==> r[i] * (|p.data| as real) == g[0] * 2.0 * (p.data[i] - t.data[i]) by {
      forall i | 0 <= i < |r|
        ensures r[i] * (|p.data| as real) == g[0] * 2.0 * (p.data[i] - t.data[i])
      {
        TimesDivisor(r[i], g[0] * 2.0 * (p.data[i] - t.data[i]), |p.data| as real);
      }
    }
    r
  }

  /** A perfect prediction has zero loss and zero gradient. */
  lemma MsePerfectPrediction(p: Tensor, t: Tensor, g: seq<real>)
    requires WellFormed(p) && p.data == t.data && |p.data| > 0 && |g| >= 1
    ensures MseForward(p, t).Ok? && MseForward(p, t).value.Some?
    ensures MseForward(p, t).value.value.data == [0.0]
    ensures forall i :: 0 <= i < |p.data| ==> MseBackward(p, t, g)[i] == 0.0
  {
    var n := |p.data|;
    assert SquaredErrors(p.data, t.data) == seq(n, _ => 0.0);
    SumConstant(n, 0.0);
  }

  /** How much a square grows when its base d moves by h. */
  function SquareGrowth(d: real, h: real): real
  {
    Square(d + h) - Square(d)
  }

  /** Moving p[i] by h moves the sum of squared errors by the growth of
      (p[i] - t[i])^2. */
  lemma SquaredErrorsAfterBump(p: seq<real>, t: seq<real>, i: int, h: real)
    requires |p| == |t| && 0 <= i < |p|
    ensures Sum(SquaredErrors(Bump(p, i, h), t)) == Sum(SquaredErrors(p, t)) + SquareGrowth(p[i] - t[i], h)
  {
    var sq := SquaredErrors(p, t);
    var moved := Bump(p, i, h);
    var delta := SquareGrowth(p[i] - t[i], h);
    forall j | 0 <= j < |sq|
      ensures SquaredErrors(moved, t)[j] == Bump(sq, i, delta)[j]
    {
      if j == i {
        assert moved[j] - t[j] == (p[i] - t[i]) + h;
      } else {
        assert moved[j] == p[j];
      }
    }
    assert SquaredErrors(moved, t) == Bump(sq, i, delta);
    SumBump(sq, i, delta);
  }

  /** g0 times the move of a value from `before` to `after` is h * partial
      plus the second-order remainder g0 h^2 / n. */
  predicate FirstOrder(g0: real, before: real, after: real, h: real, partial: real, n: real)
  {
    (g0 * (after - before) - h * partial) * n == g0 * h * h
  }

  /** The algebra behind the MSE gradient: the loss moves from s/n to
      (s + (d + h)^2 - d^2)/n, and partial * n = 2 g d. */
  lemma MseAlgebra(g: real, d: real, h: real, n: real, s: real, before: real, after: real, partial: real)
    requires n > 0.0 && before == s / n && after == (s + SquareGrowth(d, h)) / n
    requires partial * n == g * 2.0 * d
    ensures FirstOrder(g, before, after, h, partial, n)
  {
    TimesDivisor(before, s, n);
    TimesDivisor(after, s + SquareGrowth(d, h), n);
    assert (g * (after - before)) * n == g * (2.0 * d * h + h * h);
  }

  lemma MseAfterBump(p: seq<real>, t: seq<real>, i: int, h: real)
    requires |p| == |t| && 0 <= i < |p|
    ensures MeanSquaredError(Bump(p, i, h), t) == (Sum(SquaredErrors(p, t)) + SquareGrowth(p[i] - t[i], h)) / (|p| as real)
  {
    SquaredErrorsAfterBump(p, t, i, h);
  }

  /** Any `partial` with partial * n = 2 g0 (p[i] - t[i]) is the first-order
      coefficient of g0 times the mean squared error in p[i]. */
  lemma MeanSquaredErrorFirstOrder(p: seq<real>, t: seq<real>, g0: real, i: int, h: real, partial: real)
    requires |p| == |t| && 0 <= i < |p|
    requires partial * (|p| as real) == g0 * 2.0 * (p[i] - t[i])
    ensures FirstOrder(g0, MeanSquaredError(p, t), MeanSquaredError(Bump(p, i, h), t), h, partial, |p| as real)
  {
    var n, s, d := |p| as real, Sum(SquaredErrors(p, t)), p[i] - t[i];
    assert partial * n == g0 * 2.0 * d;
    var before, after := MeanSquaredError(p, t), MeanSquaredError(Bump(p, i, h), t);
    MseAfterBump(p, t, i, h);
    MseAlgebra(g0, d, h, n, s, before, after, partial);
  }

  /** MSE's backward rule is the derivative of the loss: moving p[i] by h
      changes grad[0] times the loss by h times entry i, plus the
      second-order term g[0] h^2 / n. */
  lemma MseBackwardIsFirstOrder(p: Tensor, t: Tensor, g: seq<real>, i: int, h: real)
    requires |p.data| == |t.data| && |g| >= 1 && 0 <= i < |p.data|
    ensures FirstOrder(g[0], MeanSquaredError(p.data, t.data), MeanSquaredError(Bump(p.data, i, h), t.data),
                       h, MseBackward(p, t, g)[i], |p.data| as real)
  {
    MeanSquaredErrorFirstOrder(p.data, t.data, g[0], i, h, MseBackward(p, t, g)[i]);
  }

  // ------------------------------------------------------ Cross entropy

  /** Go's int(x) on a float64: truncation toward zero. */
  function Trunc(x: real): (r: int)
    ensures x >= 0.0 ==> 0 <= r && r as real <= x < r as real + 1.0
    ensures x < 0.0 ==> r <= 0 && r as real - 1.0 < x <= r as real
  {
    if x >= 0.0 then x.Floor else -((-x).Floor)
  }

  /** The two validations before the loop: ranks 2 and 1, equal batch sizes. */
  predicate CeChecksPass(p: Tensor, t: Tensor)
  {
    |p.shape| == 2 && |t.shape| == 1 && p.shape[0] == t.shape[0]
  }

  /** The loop reads targets[i] and a prediction in row i for every i below
      the batch size, which must be positive (a batch of 0 divides 0 by 0). */
  predicate CeShape(p: Tensor, t: Tensor, b: int, c: int)
  {
    b > 0 && |t.data| >= b && |p.data| >= b * c
  }

  predicate CeDefined(p: Tensor, t: Tensor)
  {
    CeChecksPass(p, t) ==> CeShape(p, t, p.shape[0], p.shape[1])
  }

  lemma LessThanOne(x: int, c: int)
    requires c > 0 && x * c < c
    ensures x < 1
  {
  }

  /** Position (i, j) of a row-major b-by-c matrix. */
  function FlatIndex(i: int, j: int, b: int, c: int): (k: int)
    requires 0 <= i < b && 0 <= j < c
    ensures 0 <= k < b * c
  {
    assert (i + 1) * c <= b * c;
    i * c + j
  }

  /** Row and column are recovered from a flat index by division and remainder. */
  lemma FlatIndexInverse(i: int, j: int, b: int, c: int)
    requires 0 <= i < b && 0 <= j < c
    ensures FlatIndex(i, j, b, c) / c == i && FlatIndex(i, j, b, c) % c == j
  {
    var k := FlatIndex(i, j, b, c);
    var q, r := k / c, k % c;
    assert k == q * c + r;
    assert (i - q) * c == r - j;
    LessThanOne(i - q, c);
    LessThanOne(q - i, c);
  }

  lemma FlatIndexOf(k: int, b: int, c: int)
    requires 0 <= k < b * c && c > 0
    ensures 0 <= k / c < b && 0 <= k % c < c && FlatIndex(k / c, k % c, b, c) == k
  {
  }

  function TargetClass(t: Tensor, i: int): int
    requires 0 <= i < |t.data|
  {
    Trunc(t.data[i])
  }

  predicate ClassValid(t: Tensor, c: int, i: int)
    requires 0 <= i < |t.data|
  {
    0 <= TargetClass(t, i) < c
  }

  /** The predicted probability of row i's target class. */
  function TargetProb(p: Tensor, t: Tensor, b: int, c: int, i: int): real
    requires CeShape(p, t, b, c) && 0 <= i < b && ClassValid(t, c, i)
  {
    p.data[FlatIndex(i, TargetClass(t, i), b, c)]
  }

  /** Row i passes both checks of the loop. */
  predicate RowValid(p: Tensor, t: Tensor, b: int, c: int, i: int)
    requires CeShape(p, t, b, c) && 0 <= i < b
  {
    ClassValid(t, c, i) && TargetProb(p, t, b, c, i) > 0.0
  }

  predicate RowsValid(p: Tensor, t: Tensor, b: int, c: int, lo: int, hi: int)
    requires CeShape(p, t, b, c) && 0 <= lo && hi <= b
  {
    forall i :: lo <= i < hi ==> RowValid(p, t, b, c, i)
  }

  /** Reference definition: the sum of the log target probabilities of rows [0, k). */
  function LogLikelihood(p: Tensor, t: Tensor, b: int, c: int, ln: real -> real, k: int): real
    requires CeShape(p, t, b, c) && 0 <= k <= b && RowsValid(p, t, b, c, 0, k)
  {
    if k == 0 then 0.0
    else
      assert RowValid(p, t, b, c, k - 1);
      LogLikelihood(p, t, b, c, ln, k - 1) + ln(TargetProb(p, t, b, c, k - 1))
  }

  /** The loop of CrossEntropyLoss.Forward from row i with `acc` accumulated:
      the first row with an invalid class or a non-positive probability ends
      it with that error; otherwise it subtracts every row's log probability. */
  function Scan(p: Tensor, t: Tensor, b: int, c: int, ln: real -> real, i: int, acc: real): (r: Result<real>)
    requires CeShape(p, t, b, c) && 0 <= i <= b && RowsValid(p, t, b, c, 0, i)
    ensures r.Ok? <==> RowsValid(p, t, b, c, i, b)
    ensures r.Ok? ==>
      && RowsValid(p, t, b, c, 0, b)
      && r.value == acc - (LogLikelihood(p, t, b, c, ln, b) - LogLikelihood(p, t, b, c, ln, i))
    ensures r.Err? ==> exists j :: (i <= j < b && RowsValid(p, t, b, c, i, j) && !RowValid(p, t, b, c, j)
      && r.error == (if ClassValid(t, c, j) then NonPositiveProbability else InvalidClassIndex))
    decreases b - i
  {
    if i == b then Ok(acc)
    else if !ClassValid(t, c, i) then
      assert !RowValid(p, t, b, c, i) && RowsValid(p, t, b, c, i, i);
      Err(InvalidClassIndex)
    else if TargetProb(p, t, b, c, i) <= 0.0 then
      assert !RowValid(p, t, b, c, i) && RowsValid(p, t, b, c, i, i);
      Err(NonPositiveProbability)
    else
      assert RowsValid(p, t, b, c, 0, i + 1);
      Scan(p, t, b, c, ln, i + 1, acc - ln(TargetProb(p, t, b, c, i)))
  }

  /** CrossEntropyLoss.Forward with the natural logarithm `ln`: the rank
      check, then the batch check, then the rows in order; on success
      -(sum of ln p[i, target_i]) / batch as a shape-[1] tensor whose node
      is the cross-entropy node. */
  function CrossEntropyForward(p: Tensor, t: Tensor, ln: real -> real): (r: Result<Tensor>)
    requires CeDefined(p, t)
    ensures !(|p.shape| == 2 && |t.shape| == 1) ==> r == Err(RankMismatch)
    ensures |p.shape| == 2 && |t.shape| == 1 && p.shape[0] != t.shape[0] ==> r == Err(BatchMismatch)
    ensures CeChecksPass(p, t) ==>
      var b, c := p.shape[0], p.shape[1];
      && (r.Ok? <==> RowsValid(p, t, b, c, 0, b))
      && (r.Err? ==> exists j :: 0 <= j < b && RowsValid(p, t, b, c, 0, j) && !RowValid(p, t, b, c, j)
                      && r.error == (if ClassValid(t, c, j) then NonPositiveProbability else InvalidClassIndex))
    ensures r.Ok? ==>
      && CeChecksPass(p, t)
      && var b, c := p.shape[0], p.shape[1];
      && RowsValid(p, t, b, c, 0, b)
      && r.value.data == [-LogLikelihood(p, t, b, c, ln, b) / (b as real)]
      && r.value.shape == [1]
      && WellFormed(r.value)
      && r.value.grad == []
      && r.value.requiresGrad == p.requiresGrad
      && r.value.creator == (if p.requiresGrad then Some(CrossEntropyNode(p, t, b, c)) else None)
  {
    if |p.shape| != 2 || |t.shape| != 1 then Err(RankMismatch)
    else if p.shape[0] != t.shape[0] then Err(BatchMismatch)
    else
      var b, c := p.shape[0], p.shape[1];
      match Scan(p, t, b, c, ln, 0, 0.0)
      case Err(e) => Err(e)
      case Ok(lossData) =>
        var loss := NewTensorBySlice([lossData / (b as real)], [1], p.requiresGrad).value;
        if p.requiresGrad then Ok(loss.(creator := Some(CrossEntropyNode(p, t, b, c)))) else Ok(loss)
  }

  /** When every target class is predicted with probability 1, and ln 1 = 0,
      the loss is zero. */
  lemma {:induction false} CertainPredictionHasZeroLoss(p: Tensor, t: Tensor, b: int, c: int, ln: real -> real, k: int)
    requires ln(1.0) == 0.0
    requires CeShape(p, t, b, c) && 0 <= k <= b && RowsValid(p, t, b, c, 0, k)
    requires forall i :: 0 <= i < k ==> RowValid(p, t, b, c, i) && TargetProb(p, t, b, c, i) == 1.0
    ensures LogLikelihood(p, t, b, c, ln, k) == 0.0
  {
    if k > 0 {
      CertainPredictionHasZeroLoss(p, t, b, c, ln, k - 1);
    }
  }

  /** The node's backward closure needs the rows the forward pass validated
      and reads grad[0]. */
  predicate CeBackwardDefined(p: Tensor, t: Tensor, b: int, c: int, g: seq<real>)
  {
    CeShape(p, t, b, c) && RowsValid(p, t, b, c, 0, b) && |g| >= 1
  }

  /** The gradient of -grad0 * ln(q) / b with respect to q. */
  function TargetGradient(g0: real, q: real, b: int): (r: real)
    requires q > 0.0 && b > 0
    ensures r * q * (b as real) == -g0
    ensures r != 0.0 <==> g0 != 0.0
  {
    -g0 / (q * (b as real))
  }

  /** The backward entry at flat position k: the target gradient at each
      row's target class, 0 elsewhere. */
  function CeGradientAt(p: Tensor, t: Tensor, b: int, c: int, g: seq<real>, k: int): real
    requires CeBackwardDefined(p, t, b, c, g) && 0 <= k < |p.data|
  {
    if k < b * c && c > 0 && k % c == TargetClass(t, k / c) then
      FlatIndexOf(k, b, c);
      assert RowValid(p, t, b, c, k / c);
      TargetGradient(g[0], p.data[k], b)
    else 0.0
  }

  lemma CeGradientAtFlat(p: Tensor, t: Tensor, b: int, c: int, g: seq<real>, i: int, j: int)
    requires CeBackwardDefined(p, t, b, c, g) && 0 <= i < b && 0 <= j < c
    ensures RowValid(p, t, b, c, i)
    ensures CeGradientAt(p, t, b, c, g, FlatIndex(i, j, b, c))
      == (if j == TargetClass(t, i) then TargetGradient(g[0], TargetProb(p, t, b, c, i), b) else 0.0)
  {
    FlatIndexInverse(i, j, b, c);
  }

  /** Cross entropy's backward closure: in each row, the entry of the target
      class is -grad[0] / (p * batch), where p is its predicted probability;
      every other entry, including any past the b-by-c matrix, is 0. */
  function CeBackward(p: Tensor, t: Tensor, b: int, c: int, g: seq<real>): (r: seq<real>)
    requires CeBackwardDefined(p, t, b, c, g)
    ensures |r| == |p.data|
    ensures forall i, j {:trigger r[FlatIndex(i, j, b, c)]} :: 0 <= i < b && 0 <= j < c ==> (RowValid(p, t, b, c, i) &&
      r[FlatIndex(i, j, b, c)] == (if j == TargetClass(t, i) then TargetGradient(g[0], TargetProb(p, t, b, c, i), b) else 0.0))
    ensures forall k :: 0 <= k < |r| && k >= b * c ==> r[k] == 0.0
  {
    var r := seq(|p.data|, k requires 0 <= k < |p.data| => CeGradientAt(p, t, b, c, g, k));
    assert forall i, j {:trigger r[FlatIndex(i, j, b, c)]} :: 0 <= i < b && 0 <= j < c ==> (RowValid(p, t, b, c, i) &&
      r[FlatIndex(i, j, b, c)] == (if j == TargetClass(t, i) then TargetGradient(g[0], TargetProb(p, t, b, c, i), b) else 0.0)) by {
      forall i, j | 0 <= i < b && 0 <= j < c
        ensures RowValid(p, t, b, c, i) &&
          r[FlatIndex(i, j, b, c)] == (if j == TargetClass(t, i) then TargetGradient(g[0], TargetProb(p, t, b, c, i), b) else 0.0)
      {
        CeGradientAtFlat(p, t, b, c, g, i, j);
      }
    }
    r
  }

  /** The gradient is non-zero exactly at the target entries, when grad[0] is
      non-zero: by CrossEntropyOffTargetIsExact, the loss depends on no other
      prediction. */
  lemma CeGradientSupport(p: Tensor, t: Tensor, b: int, c: int, g: seq<real>, i: int, j: int)
    requires CeBackwardDefined(p, t, b, c, g) && g[0] != 0.0
    requires 0 <= i < b && 0 <= j < c
    ensures CeBackward(p, t, b, c, g)[FlatIndex(i, j, b, c)] != 0.0 <==> j == TargetClass(t, i)
  {
  }

  /** Position k of the predictions is no row's target entry. */
  predicate OffTarget(t: Tensor, b: int, c: int, k: int)
    requires |t.data| >= b
  {
    forall i :: 0 <= i < b && ClassValid(t, c, i) ==> FlatIndex(i, TargetClass(t, i), b, c) != k
  }

  /** Moving a prediction that is no row's target entry changes neither the
      validity of any row nor the log-likelihood of rows [0, m). */
  lemma {:induction false} LogLikelihoodIgnoresOffTarget(p: Tensor, t: Tensor, b: int, c: int, ln: real -> real, k: int, h: real, m: int)
    requires CeShape(p, t, b, c) && 0 <= k < |p.data| && OffTarget(t, b, c, k)
    requires 0 <= m <= b && RowsValid(p, t, b, c, 0, m)
    ensures var q := p.(data := Bump(p.data, k, h));
      && CeShape(q, t, b, c)
      && (forall i :: 0 <= i < b ==> (RowValid(q, t, b, c, i) <==> RowValid(p, t, b, c, i)))
      && RowsValid(q, t, b, c, 0, m)
      && LogLikelihood(q, t, b, c, ln, m) == LogLikelihood(p, t, b, c, ln, m)
    decreases m
  {
    var q := p.(data := Bump(p.data, k, h));
    forall i | 0 <= i < b
      ensures RowValid(q, t, b, c, i) <==> RowValid(p, t, b, c, i)
      ensures ClassValid(t, c, i) ==> TargetProb(q, t, b, c, i) == TargetProb(p, t, b, c, i)
    {
      if ClassValid(t, c, i) {
        assert FlatIndex(i, TargetClass(t, i), b, c) != k;
      }
    }
    if m > 0 {
      LogLikelihoodIgnoresOffTarget(p, t, b, c, ln, k, h, m - 1);
    }
  }

  /** The cross-entropy loss does not depend on predictions off the target
      entries, and the backward rule is 0 there: at such a position the rule
      is the exact vector-Jacobian entry. */
  lemma CrossEntropyOffTargetIsExact(p: Tensor, t: Tensor, ln: real -> real, g: seq<real>, k: int, h: real)
    requires CeChecksPass(p, t) && CeDefined(p, t) && |g| >= 1 && 0 <= k < |p.data|
    requires OffTarget(t, p.shape[0], p.shape[1], k)
    requires CrossEntropyForward(p, t, ln).Ok?
    ensures var q := p.(data := Bump(p.data, k, h));
      && CeDefined(q, t)
      && CrossEntropyForward(q, t, ln).Ok?
      && CrossEntropyForward(q, t, ln).value.data == CrossEntropyForward(p, t, ln).value.data
      && CeBackwardDefined(p, t, p.shape[0], p.shape[1], g)
      && CeBackward(p, t, p.shape[0], p.shape[1], g)[k] == 0.0
      && Weighs(g[0], CrossEntropyForward(q, t, ln).value.data[0] - CrossEntropyForward(p, t, ln).value.data[0],
                h, CeBackward(p, t, p.shape[0], p.shape[1], g)[k])
  {
    var b, c := p.shape[0], p.shape[1];
    LogLikelihoodIgnoresOffTarget(p, t, b, c, ln, k, h, b);
    CeBackwardOffTarget(p, t, b, c, g, k);
  }

  /** The backward rule is 0 at every position off the target entries. */
  lemma CeBackwardOffTarget(p: Tensor, t: Tensor, b: int, c: int, g: seq<real>, k: int)
    requires CeBackwardDefined(p, t, b, c, g) && 0 <= k < |p.data| && OffTarget(t, b, c, k)
    ensures CeBackward(p, t, b, c, g)[k] == 0.0
  {
    if k < b * c {
      FlatIndexOf(k, b, c);
      assert k == FlatIndex(k / c, k % c, b, c);
    }
  }

  /** The row facts of the examples below. */
  lemma SingleRow(p: Tensor, t: Tensor, b: int, c: int)
    requires p.shape == [b, c] && b == 1 && c > 0 && |p.data| == c && p.data[0] == 0.7
    requires t.data == [0.0] && t.shape == [b]
    ensures CeChecksPass(p, t) && CeDefined(p, t) && CeShape(p, t, b, c) && RowsValid(p, t, b, c, 0, b)
    ensures TargetClass(t, 0) == 0 && TargetProb(p, t, b, c, 0) == 0.7
  {
    assert TargetClass(t, 0) == 0;
    assert FlatIndex(0, 0, b, c) == 0;
    forall i | 0 <= i < b
      ensures RowValid(p, t, b, c, i)
    {
      assert i == 0;
    }
  }

  /** One row whose target class 0 is predicted with probability 0.7, among
      any number of classes (for example [0.7, 0.3]): the loss is -ln 0.7. */
  lemma CrossEntropySingleRowForward(p: Tensor, t: Tensor, b: int, c: int, ln: real -> real)
    requires p.shape == [b, c] && b == 1 && c > 0 && |p.data| == c && p.data[0] == 0.7
    requires t.data == [0.0] && t.shape == [b]
    ensures CeDefined(p, t)
    ensures CrossEntropyForward(p, t, ln).Ok?
    ensures CrossEntropyForward(p, t, ln).value.data == [-ln(0.7)]
    ensures CrossEntropyForward(p, t, ln).value.creator == (if p.requiresGrad then Some(CrossEntropyNode(p, t, b, c)) else None)
  {
    SingleRow(p, t, b, c);
    assert LogLikelihood(p, t, b, c, ln, b) == ln(0.7);
    assert (b as real) == 1.0;
  }

  /** The same row backwards: with grad[0] = 1 the gradient is -1/0.7 at
      the target and 0 at every other class (for [0.7, 0.3]: [-1/0.7, 0]). */
  lemma CrossEntropySingleRowBackward(p: Tensor, t: Tensor, b: int, c: int)
    requires p.shape == [b, c] && b == 1 && c > 0 && |p.data| == c && p.data[0] == 0.7
    requires t.data == [0.0] && t.shape == [b]
    ensures CeBackwardDefined(p, t, b, c, [1.0])
    ensures |CeBackward(p, t, b, c, [1.0])| == c
    ensures CeBackward(p, t, b, c, [1.0])[0] == -1.0 / 0.7
    ensures forall k :: 0 < k < c ==> CeBackward(p, t, b, c, [1.0])[k] == 0.0
  {
    SingleRow(p, t, b, c);
    var r := CeBackward(p, t, b, c, [1.0]);
    assert FlatIndex(0, 0, b, c) == 0;
    assert r[0] == TargetGradient(1.0, 0.7, b);
    forall k | 0 < k < c
      ensures r[k] == 0.0
    {
      assert FlatIndex(0, k, b, c) == k;
    }
  }
}

=== FILE: module.dfy ===
/** BaseModule: an ordered list of parameter tensors (nn/module.go). The Go
    slice holds pointers, so the parameters are handles into a `Store`; the
    same tensor may be registered more than once. */
module Modules {
  import opened Tensors

  datatype BaseModule = BaseModule(params: seq<nat>)

  /** AddParameter appends; earlier registrations keep their places. */
  function AddParameter(m: BaseModule, t: nat): (r: BaseModule)
    ensures |r.params| == |m.params| + 1
    ensures r.params[..|m.params|] == m.params
    ensures r.params[|m.params|] == t
  {
    BaseModule(m.params + [t])
  }

  /** Registers `ts` one after the other. */
  function AddParameters(m: BaseModule, ts: seq<nat>): BaseModule
    decreases |ts|
  {
    if |ts| == 0 then m else AddParameters(AddParameter(m, ts[0]), ts[1..])
  }

  /** Parameters hands back the registered tensors, aliased, in order. */
  function Parameters(m: BaseModule): seq<nat>
  {
    m.params
  }

  /** The parameters of a module are exactly the tensors registered with it,
      in registration order, duplicates included. */
  lemma {:induction false} ParametersInRegistrationOrder(m: BaseModule, ts: seq<nat>)
    ensures Parameters(AddParameters(m, ts)) == Parameters(m) + ts
    decreases |ts|
  {
    if |ts| > 0 {
      ParametersInRegistrationOrder(AddParameter(m, ts[0]), ts[1..]);
      assert [ts[0]] + ts[1..] == ts;
    }
  }

  /** Zeroes the gradient of every tensor named in `handles`, one after the other. */
  function ZeroGradAll(store: Store, handles: seq<nat>): (r: Store)
    requires ValidHandles(store, handles)
    ensures |r| == |store|
    ensures forall h :: 0 <= h < |store| ==>
      r[h] == (if h in handles then Tensors.ZeroGrad(store[h]) else store[h])
    decreases |handles|
  {
    if |handles| == 0 then store
    else
      var h0 := handles[0];
      var next := store[h0 := Tensors.ZeroGrad(store[h0])];
      assert forall h :: 0 <= h < |store| ==> (h in handles <==> h == h0 || h in handles[1..]);
      ZeroGradAll(next, handles[1..])
  }

  /** BaseModule.ZeroGrad: the parameters' gradients become zero and every
      other tensor is left as it was. */
  function ZeroGrad(m: BaseModule, store: Store): (r: Store)
    requires ValidHandles(store, m.params)
    ensures |r| == |store|
    ensures forall k :: 0 <= k < |m.params| ==>
      && |r[m.params[k]].grad| == |store[m.params[k]].grad|
      && (forall i :: 0 <= i < |r[m.params[k]].grad| ==> r[m.params[k]].grad[i] == 0.0)
      && r[m.params[k]].data == store[m.params[k]].data
    ensures forall h :: 0 <= h < |store| && h !in m.params ==> r[h] == store[h]
  {
    ZeroGradAll(store, m.params)
  }

  /** Zeroing twice is zeroing once. */
  lemma ZeroGradIdempotent(m: BaseModule, store: Store)
    requires ValidHandles(store, m.params)
    ensures ZeroGrad(m, ZeroGrad(m, store)) == ZeroGrad(m, store)
  {
    var once := ZeroGrad(m, store);
    var twice := ZeroGrad(m, once);
    forall h | 0 <= h < |store|
      ensures twice[h] == once[h]
    {
      if h in m.params {
        Tensors.ZeroGradIdempotent(store[h]);
      }
    }
  }
}

=== FILE: optimizer.dfy ===
/** Plain gradient descent over a list of parameter tensors (optim/optimizer.go). */
module Optim {
  import opened Tensors
  import Modules

  datatype Optimizer = Optimizer(parameters: seq<nat>, learningRate: real)

  /** NewOptimizer keeps the caller's parameter slice (aliased) and rate. */
  function NewOptimizer(params: seq<nat>, lr: real): (r: Optimizer)
    ensures r.parameters == params && r.learningRate == lr
  {
    Optimizer(params, lr)
  }

  /** Step indexes each parameter's gradient at every position of its data:
      every handle must be valid and every gradient at least as long as the data. */
  predicate StepDefined(opt: Optimizer, store: Store)
  {
    && ValidHandles(store, opt.parameters)
    && forall k :: 0 <= k < |opt.parameters| ==>
         |store[opt.parameters[k]].grad| >= |store[opt.parameters[k]].data|
  }

  /** Reference definition: `t` after `times` descent updates with rate `lr`.
      Each update subtracts `lr * grad[i]` from `data[i]` and reads the same
      gradient, so `times` updates subtract it `times` times. */
  function Descend(t: Tensor, times: nat, lr: real): (r: Tensor)
    requires |t.grad| >= |t.data|
    ensures |r.data| == |t.data|
  {
    t.(data := seq(|t.data|, i requires 0 <= i < |t.data| => t.data[i] - (times as real) * (lr * t.grad[i])))
  }

  /** Descending zero times, or with rate zero, leaves a tensor unchanged. */
  lemma DescendIsIdentity(t: Tensor, times: nat, lr: real)
    requires |t.grad| >= |t.data|
    requires times == 0 || lr == 0.0
    ensures Descend(t, times, lr) == t
  {
    var d := Descend(t, times, lr);
    assert d.data == t.data;
  }

  /** With all gradients zero, descent leaves a tensor unchanged. */
  lemma DescendAtZeroGradient(t: Tensor, times: nat, lr: real)
    requires |t.grad| >= |t.data|
    requires forall i :: 0 <= i < |t.data| ==> t.grad[i] == 0.0
    ensures Descend(t, times, lr) == t
  {
    var d := Descend(t, times, lr);
    assert d.data == t.data;
  }

  /** One more update on top of `times` updates is `times + 1` updates. */
  lemma DescendOnceMore(t: Tensor, times: nat, lr: real, data: seq<real>)
    requires |t.grad| >= |t.data|
    requires |data| == |t.data|
    requires forall i :: 0 <= i < |data| ==> data[i] == Descend(t, times, lr).data[i] - lr * t.grad[i]
    ensures Descend(t, times, lr).(data := data) == Descend(t, times + 1, lr)
  {
    var d := Descend(t, times + 1, lr);
    forall i | 0 <= i < |data|
      ensures data[i] == d.data[i]
    {
      var g := lr * t.grad[i];
      assert (times as real) * g + g == ((times + 1) as real) * g;
    }
  }

  /** The inner loop of Step: `lr * grad[i]` subtracted from every `data[i]`. */
  method Update(t: Tensor, lr: real) returns (data: seq<real>)
    requires |t.grad| >= |t.data|
    ensures |data| == |t.data|
    ensures forall j :: 0 <= j < |data| ==> data[j] == t.data[j] - lr * t.grad[j]
  {
    data := t.data;
    var i := 0;
    while i < |data|
      invariant 0 <= i <= |data| == |t.data|
      invariant forall j :: 0 <= j < i ==> data[j] == t.data[j] - lr * t.grad[j]
      invariant forall j :: i <= j < |data| ==> data[j] == t.data[j]
    {
      data := data[i := data[i] - lr * t.grad[i]];
      i := i + 1;
    }
  }

  /** `r` is `store` after the updates for the handles `ps`, in order. */
  predicate Stepped(store: Store, r: Store, ps: seq<nat>, lr: real)
  {
    && |r| == |store|
    && StepDefined(Optimizer(ps, lr), store)
    && forall h :: 0 <= h < |store| ==>
         r[h] == (if h in ps then Descend(store[h], multiset(ps)[h], lr) else store[h])
  }

  /** One more pass of the inner loop extends the updates by one handle. */
  lemma SteppedExtend(store: Store, r: Store, ps: seq<nat>, p: nat, lr: real, data: seq<real>)
    requires Stepped(store, r, ps, lr)
    requires p < |store| && |store[p].grad| >= |store[p].data|
    requires |data| == |r[p].data|
    requires forall j :: 0 <= j < |data| ==> data[j] == r[p].data[j] - lr * r[p].grad[j]
    ensures Stepped(store, r[p := r[p].(data := data)], ps + [p], lr)
  {
    var ps': seq<nat> := ps + [p];
    var next := r[p := r[p].(data := data)];
    var before := store[p];
    if p !in ps {
      DescendIsIdentity(before, 0, lr);
    }
    assert r[p] == Descend(before, multiset(ps)[p], lr);
    DescendOnceMore(before, multiset(ps)[p], lr, data);
    forall h | 0 <= h < |store|
      ensures next[h] == (if h in ps' then Descend(store[h], multiset(ps')[h], lr) else store[h])
    {
      if h != p {
        assert multiset(ps')[h] == multiset(ps)[h];
        assert h in ps' <==> h in ps;
      }
    }
  }

  /** Step: each listed tensor, in order, has `lr * grad[i]` subtracted from
      `data[i]` for every i. A tensor listed m times is updated m times, and
      tensors that are not listed, and all gradients, are unchanged. */
  method Step(opt: Optimizer, store: Store) returns (r: Store)
    requires StepDefined(opt, store)
    ensures |r| == |store|
    ensures forall h :: 0 <= h < |store| && h in opt.parameters ==>
      r[h] == Descend(store[h], multiset(opt.parameters)[h], opt.learningRate)
    ensures forall h :: 0 <= h < |store| && h !in opt.parameters ==> r[h] == store[h]
  {
    var params, lr := opt.parameters, opt.learningRate;
    r := store;
    var k := 0;
    while k < |params|
      invariant 0 <= k <= |params|
      invariant Stepped(store, r, params[..k], lr)
    {
      var p := params[k];
      assert params[..k + 1] == params[..k] + [p];
      var data := Update(r[p], lr);
      SteppedExtend(store, r, params[..k], p, lr, data);
      r := r[p := r[p].(data := data)];
      k := k + 1;
    }
    assert params[..k] == params;
  }

  /** An optimizer built over a module's parameters moves exactly those tensors. */
  method StepModule(m: Modules.BaseModule, lr: real, store: Store) returns (r: Store)
    requires StepDefined(NewOptimizer(Modules.Parameters(m), lr), store)
    ensures |r| == |store|
    ensures forall h :: 0 <= h < |store| && h !in m.params ==> r[h] == store[h]
    ensures forall k :: 0 <= k < |m.params| ==>
      r[m.params[k]] == Descend(store[m.params[k]], multiset(m.params)[m.params[k]], lr)
  {
    r := Step(NewOptimizer(Modules.Parameters(m), lr), store);
  }
}

=== FILE: relu.dfy ===
/** The ReLU activation module (nn/relu.go). */
module Relu {
  import opened Results
  import opened Vectors
  import opened Tensors
  import Modules

  function Max0(x: real): real
  {
    if x > 0.0 then x else 0.0
  }

  /** Forward builds its result with NewCPUTensorBySlice from the input's
      shape and ignores the error: on a malformed input the result is nil,
      which is returned as is without a gradient and dereferenced with one. */
  predicate ForwardDefined(input: Tensor)
  {
    WellFormed(input) || !input.requiresGrad
  }

  /** ReLU.Forward: the positive part of every value, the input's shape, and a
      node exactly when the input requires a gradient. None is the nil result. */
  function Forward(input: Tensor): (r: Option<Tensor>)
    requires ForwardDefined(input)
    ensures r.None? <==> !WellFormed(input)
    ensures r.Some? ==>
      && |r.value.data| == |input.data|
      && (forall i :: 0 <= i < |input.data| ==>
            r.value.data[i] >= 0.0 && (r.value.data[i] == input.data[i] || r.value.data[i] == 0.0)
            && (r.value.data[i] > 0.0 <==> input.data[i] > 0.0))
      && r.value.shape == input.shape
      && WellFormed(r.value)
      && r.value.grad == []
      && r.value.requiresGrad == input.requiresGrad
      && r.value.creator == (if input.requiresGrad then Some(ReluNode(input)) else None)
  {
    var resultData := seq(|input.data|, i requires 0 <= i < |input.data| => Max0(input.data[i]));
    match NewTensorBySlice(resultData, input.shape, input.requiresGrad)
    case Err(_) => None
    case Ok(result) =>
      if input.requiresGrad then Some(result.(creator := Some(ReluNode(input)))) else Some(result)
  }

  /** Applying ReLU to its own output changes no value. */
  lemma ForwardIdempotent(input: Tensor)
    requires ForwardDefined(input) && WellFormed(input)
    ensures Forward(input).Some?
    ensures ForwardDefined(Forward(input).value)
    ensures Forward(Forward(input).value).Some?
    ensures Forward(Forward(input).value).value.data == Forward(input).value.data
  {
  }

  /** The backward closure reads grad[i] wherever the input was positive. */
  predicate BackwardDefined(input: Tensor, g: seq<real>)
  {
    forall i :: 0 <= i < |input.data| && input.data[i] > 0.0 ==> i < |g|
  }

  /** ReLU's backward closure: the upstream gradient passes where the input
      was positive and is blocked elsewhere. */
  function Backward(input: Tensor, g: seq<real>): (r: seq<real>)
    requires BackwardDefined(input, g)
    ensures |r| == |input.data|
    ensures forall i :: 0 <= i < |r| ==> r[i] == (if input.data[i] > 0.0 then g[i] else 0.0)
  {
    seq(|input.data|, i requires 0 <= i < |input.data| => if input.data[i] > 0.0 then g[i] else 0.0)
  }

  /** Away from the kink, ReLU's backward rule is the exact vector-Jacobian
      product: a move of input[i] that keeps its sign changes only entry i of
      the output, and g[i] times that change is h times entry i. */
  lemma BackwardIsExact(input: Tensor, g: seq<real>, i: int, h: real)
    requires WellFormed(input) && |g| == |input.data| && 0 <= i < |g|
    requires input.data[i] != 0.0
    requires (if input.data[i] > 0.0 then input.data[i] + h > 0.0 else input.data[i] + h <= 0.0)
    ensures var moved := input.(data := Bump(input.data, i, h));
      && ForwardDefined(moved)
      && ZeroExcept(Change(Forward(input).value.data, Forward(moved).value.data), i)
      && Weighs(g[i], Change(Forward(input).value.data, Forward(moved).value.data)[i], h, Backward(input, g)[i])
  {
    var moved := input.(data := Bump(input.data, i, h));
    var d := Change(Forward(input).value.data, Forward(moved).value.data);
    forall j | 0 <= j < |d| && j != i
      ensures d[j] == 0.0
    {
      assert moved.data[j] == input.data[j];
    }
  }

  /** ReLU has no parameters. */
  function Parameters(): (r: seq<nat>)
    ensures |r| == 0
  {
    []
  }

  /** ReLU.ZeroGrad does nothing, which is what zeroing its (empty)
      parameter list does. */
  function ZeroGrad(store: Store): (r: Store)
    ensures r == Modules.ZeroGradAll(store, Parameters())
  {
    store
  }
}

=== FILE: results.dfy ===
/** The `(value, error)` pairs returned by the Go functions, and nil pointers. */
module Results {

  /** One constructor per distinct error message of the library. */
  datatype Error =
    | DataShapeMismatch       // "Data size does not match Shape"
    | SizeMismatch            // "CPUTensor sizes must match"
    | ShapeMismatch           // "tensor shapes must match"
    | DivisionByZero          // "division by zero"
    | NoData                  // "tensor has no data"
    | LossSizeMismatch        // "predictions and targets must have the same size"
    | RankMismatch            // "predictions must be 2D and targets must be 1D"
    | BatchMismatch           // "batch size of predictions and targets must match"
    | InvalidClassIndex       // "invalid target class index"
    | NonPositiveProbability  // "logarithm of zero or negative probability"
    | IndexOutOfRange         // "index out of range"
    | NoMoreBatches           // "no more batches"

  /** A Go result with a nil error (`Ok`) or a non-nil error and no value (`Err`). */
  datatype Result<+T> = Ok(value: T) | Err(error: Error)

  /** A Go pointer that may be nil. */
  datatype Option<+T> = None | Some(value: T)
}

=== FILE: tensor.dfy ===
/** Dense tensors, the records of the operations that produced them, and
    the tensor constructors (core/tensor.go). */
module Tensors {
  import opened Results

  /** A CPUTensor. `stride` is the row-major stride of `shape`; the dtype and
      device strings are constants and are not kept. */
  datatype Tensor = Tensor(
    data: seq<real>,
    shape: seq<int>,
    stride: seq<int>,
    grad: seq<real>,
    requiresGrad: bool,
    creator: Option<Node>)

  /** The Function record of an operation. The Go closure becomes a tag naming
      its backward rule, and the operands it reads are kept as the values they
      had at forward time. The record's Output is the tensor that holds the node. */
  datatype Node =
    | AddNode(a: Tensor, b: Tensor)
    | SubNode(a: Tensor, b: Tensor)
    | MulNode(a: Tensor, b: Tensor)
    | DivNode(a: Tensor, b: Tensor)
    | MeanNode(input: Tensor)
    | ReluNode(input: Tensor)
    | MseNode(predictions: Tensor, targets: Tensor)
    | CrossEntropyNode(predictions: Tensor, targets: Tensor, batch: int, classes: int)
  {
    /** The Function's Inputs, in order. */
    function Inputs(): seq<Tensor>
    {
      match this
      case AddNode(a, b) => [a, b]
      case SubNode(a, b) => [a, b]
      case MulNode(a, b) => [a, b]
      case DivNode(a, b) => [a, b]
      case MeanNode(input) => [input]
      case ReluNode(input) => [input]
      case MseNode(p, t) => [p, t]
      case CrossEntropyNode(p, t, _, _) => [p, t]
    }
  }

  /** The tensors reachable through pointers, addressed by handles. */
  type Store = seq<Tensor>

  predicate ValidHandles(store: Store, handles: seq<nat>)
  {
    forall k :: 0 <= k < |handles| ==> handles[k] < |store|
  }

  /** a * b as a sum of |a| copies of b. The dimension product is written
      with it, so that the solver unfolds a product of unknown dimensions only
      as far as a proof asks. */
  function Times(a: int, b: int): int
    decreases if a < 0 then -a else a
  {
    if a == 0 then 0 else if a > 0 then Times(a - 1, b) + b else Times(a + 1, b) - b
  }

  lemma {:induction false} TimesIsMultiplication(a: int, b: int)
    ensures Times(a, b) == a * b
    decreases if a < 0 then -a else a
  {
    if a > 0 {
      TimesIsMultiplication(a - 1, b);
    } else if a < 0 {
      TimesIsMultiplication(a + 1, b);
    }
  }

  /** The product of the dimensions; the empty shape has product 1. Go's int
      multiplication is modelled without 64-bit wrap-around. */
  function Product(shape: seq<int>): int
  {
    if |shape| == 0 then 1 else Times(shape[0], Product(shape[1..]))
  }

  lemma ProductStep(shape: seq<int>)
    requires |shape| > 0
    ensures Product(shape) == shape[0] * Product(shape[1..])
  {
    TimesIsMultiplication(shape[0], Product(shape[1..]));
  }

  /** Every entry is the product of the dimensions after it. */
  predicate IsRowMajorStride(stride: seq<int>, shape: seq<int>)
  {
    |stride| == |shape| &&
    forall i :: 0 <= i < |shape| ==> stride[i] == Product(shape[i + 1..])
  }

  /** The invariant the constructors establish: one value per position. */
  predicate WellFormed(t: Tensor)
  {
    |t.data| == Product(t.shape)
  }

  /** computeStride: filled from the last dimension backwards, each stride
      being the next one times the next dimension. */
  function ComputeStride(shape: seq<int>): (stride: seq<int>)
    ensures IsRowMajorStride(stride, shape)
    ensures |shape| > 0 ==> stride[|shape| - 1] == 1
    ensures forall i :: 0 <= i < |shape| - 1 ==> stride[i] == stride[i + 1] * shape[i + 1]
  {
    if |shape| == 0 then []
    else
      var rest := ComputeStride(shape[1..]);
      if |rest| == 0 then [1]
      else
        StrideStep(shape, rest);
        [rest[0] * shape[1]] + rest
  }

  /** Putting the product of the later dimensions in front of the strides
      of shape[1..] gives the strides of shape. */
  lemma StrideStep(shape: seq<int>, rest: seq<int>)
    requires |shape| > 1 && IsRowMajorStride(rest, shape[1..])
    requires rest[|rest| - 1] == 1
    requires forall i :: 0 <= i < |rest| - 1 ==> rest[i] == rest[i + 1] * shape[1..][i + 1]
    ensures IsRowMajorStride([rest[0] * shape[1]] + rest, shape)
    ensures forall i :: 0 <= i < |shape| - 1 ==>
      ([rest[0] * shape[1]] + rest)[i] == ([rest[0] * shape[1]] + rest)[i + 1] * shape[i + 1]
  {
    var stride := [rest[0] * shape[1]] + rest;
    ProductStep(shape[1..]);
    assert shape[1..][1..] == shape[2..];
    assert stride[0] == Product(shape[1..]);
    forall i | 1 <= i < |shape|
      ensures stride[i] == Product(shape[i + 1..])
    {
      assert shape[1..][i..] == shape[i + 1..];
    }
    forall i | 1 <= i < |shape| - 1
      ensures stride[i] == stride[i + 1] * shape[i + 1]
    {
      assert shape[1..][i] == shape[i + 1];
    }
  }

  /** Size: the product of the shape, which is the number of values of a
      well-formed tensor. */
  function Size(t: Tensor): (n: int)
    ensures WellFormed(t) ==> n == |t.data|
  {
    Product(t.shape)
  }

  /** NewCPUTensorBySlice. */
  function NewTensorBySlice(data: seq<real>, shape: seq<int>, requiresGrad: bool): (r: Result<Tensor>)
    ensures r.Err? <==> |data| != Product(shape)
    ensures r.Err? ==> r.error == DataShapeMismatch
    ensures |shape| == 0 ==> (r.Ok? <==> |data| == 1)
    ensures r.Ok? ==>
      && r.value.data == data
      && r.value.shape == shape
      && IsRowMajorStride(r.value.stride, shape)
      && r.value.requiresGrad == requiresGrad
      && r.value.creator == None
      && r.value.grad == []
      && Size(r.value) == |r.value.data|
  {
    if |data| != Product(shape) then Err(DataShapeMismatch)
    else Ok(Tensor(data, shape, ComputeStride(shape), [], requiresGrad, None))
  }

  /** NewOnesCPUTensor. Go's make panics on a negative length. */
  function NewOnes(shape: seq<int>, requiresGrad: bool): (r: Result<Tensor>)
    requires Product(shape) >= 0
    ensures r.Ok?
    ensures |r.value.data| == Product(shape) == Size(r.value)
    ensures forall i :: 0 <= i < |r.value.data| ==> r.value.data[i] == 1.0
    ensures r.value.shape == shape && IsRowMajorStride(r.value.stride, shape)
    ensures r.value.requiresGrad == requiresGrad && r.value.creator == None && r.value.grad == []
  {
    Ok(Tensor(seq(Product(shape), _ => 1.0), shape, ComputeStride(shape), [], requiresGrad, None))
  }

  /** NewZerosCPUTensor. Go's make panics on a negative length. */
  function NewZeros(shape: seq<int>): (r: Result<Tensor>)
    requires Product(shape) >= 0
    ensures r.Ok?
    ensures |r.value.data| == Product(shape) == Size(r.value)
    ensures forall i :: 0 <= i < |r.value.data| ==> r.value.data[i] == 0.0
    ensures r.value.shape == shape && IsRowMajorStride(r.value.stride, shape)
    ensures !r.value.requiresGrad && r.value.creator == None && r.value.grad == []
  {
    Ok(Tensor(seq(Product(shape), _ => 0.0), shape, ComputeStride(shape), [], false, None))
  }

  /** ZeroGrad: every gradient entry becomes 0; nothing else changes. */
  function ZeroGrad(t: Tensor): (r: Tensor)
    ensures r == t.(grad := r.grad)
    ensures |r.grad| == |t.grad|
    ensures forall i :: 0 <= i < |r.grad| ==> r.grad[i] == 0.0
  {
    t.(grad := seq(|t.grad|, _ => 0.0))
  }

  lemma ZeroGradIdempotent(t: Tensor)
    ensures ZeroGrad(ZeroGrad(t)) == ZeroGrad(t)
  {
  }

  /** No constructor allocates a gradient buffer, so zeroing a fresh tensor
      changes nothing. */
  lemma ZeroGradOfFreshTensor(data: seq<real>, shape: seq<int>, requiresGrad: bool)
    requires Product(shape) >= 0
    ensures NewTensorBySlice(data, shape, requiresGrad).Ok? ==>
      ZeroGrad(NewTensorBySlice(data, shape, requiresGrad).value) == NewTensorBySlice(data, shape, requiresGrad).value
    ensures ZeroGrad(NewOnes(shape, requiresGrad).value) == NewOnes(shape, requiresGrad).value
    ensures ZeroGrad(NewZeros(shape).value) == NewZeros(shape).value
  {
  }
}

=== FILE: vectors.dfy ===
/** Flat vectors of reals: sums and one-entry perturbations, used to state
    what the backward rules mean. */
module Vectors {

  /** Sum of the entries, accumulated left to right as the Go loops do. */
  function Sum(s: seq<real>): real
  {
    if |s| == 0 then 0.0 else Sum(s[..|s| - 1]) + s[|s| - 1]
  }

  /** `after - before`, entry by entry. */
  function Change(before: seq<real>, after: seq<real>): (d: seq<real>)
    requires |before| == |after|
    ensures |d| == |before|
  {
    seq(|before|, i requires 0 <= i < |before| => after[i] - before[i])
  }

  /** `s` with `h` added to entry `i`. */
  function Bump(s: seq<real>, i: int, h: real): (r: seq<real>)
    requires 0 <= i < |s|
    ensures |r| == |s|
  {
    s[i := s[i] + h]
  }

  /** A vector that is zero everywhere except possibly at `i`. */
  predicate ZeroExcept(v: seq<real>, i: int)
  {
    forall j :: 0 <= j < |v| && j != i ==> v[j] == 0.0
  }

  lemma {:induction false} SumConstant(n: nat, c: real)
    ensures Sum(seq(n, _ => c)) == (n as real) * c
  {
    if n > 0 {
      var s := seq(n, _ => c);
      assert s[..n - 1] == seq(n - 1, _ => c);
      SumConstant(n - 1, c);
    }
  }

  lemma {:induction false} SumBump(s: seq<real>, i: int, h: real)
    requires 0 <= i < |s|
    ensures Sum(Bump(s, i, h)) == Sum(s) + h
  {
    var b := Bump(s, i, h);
    if i == |s| - 1 {
      assert b[..|b| - 1] == s[..|s| - 1];
    } else {
      assert b[..|b| - 1] == Bump(s[..|s| - 1], i, h);
      SumBump(s[..|s| - 1], i, h);
    }
  }

  /** `g` times a change of `change` equals `h` times `partial`: the
      defining equation of one entry of a vector-Jacobian product. */
  predicate Weighs(g: real, change: real, h: real, partial: real)
  {
    g * change == h * partial
  }
}
